=== FILE: README.md ===
# mailclient-cpp, modelled in Dafny

mailclient-cpp wraps libcurl's easy interface in three mail clients: POP3
(`CPOPClient`), IMAP (`CIMAPClient`) and SMTP (`CSMTPClient`). They share a
base class, `CMailClient`. This project models that core as pure Dafny
functions over immutable datatypes and proves what the code promises.

- **Session** (`mailclient.dfy`, module `MailClient`). It covers:
  - the session attributes and their defaults;
  - `InitSession` and `CleanupSession`, with the live-handle rule;
  - `SetProxy` and the plain setters and getters;
  - the transport options `Perform` sets from the session before every transfer.
- **Address normalisation** (`urls.dfy`, plus `ParseUrl` in each protocol
  module). A host without the protocol's scheme gets the plain or the SSL
  scheme prepended. The test is case-insensitive. A host that already has a
  scheme forces SSL mode. POP3 and IMAP also append a final '/'.
- **Request planning** (`pop.dfy`, `imap.dfy`, `smtp.dfy`). For each
  protocol this covers the public operations and the operation descriptor
  they record. `PrePerform` becomes a function from the base URL, the
  descriptor and a "the local file opens" flag to either a refusal or a
  `Requests.Request`. A request holds:
  - the URL and the custom command;
  - the sink and the upload source;
  - the no-body flag and the SMTP envelope.

  `PostPerform` closes files. For IMAP it also issues the EXPUNGE follow-up.
- **The pipeline** (`clients.dfy`, module `Clients`). `Perform` chains:
  - the handle check;
  - the class's `PrePerform`;
  - the session's options;
  - the transfer, whose result is the `code` parameter;
  - the class's `PostPerform`.
- **Payload framing** (`streaming.dfy`). This covers:
  - the two line sources, which send `std::getline` lines with CRLF;
  - the string sink and the file sink;
  - `size * nmemb` on a 64-bit `size_t`.

  The upload loop is proved to send exactly the CRLF framing of the text
  (section 2.3.8 of RFC 5321).

Command strings are those of the protocols:
- POP3: sections 5 and 7 of RFC 1939.
- IMAP4rev1: RFC 3501, sections 6.1.2, 6.3.2-6.3.4, 6.3.9, 6.4.3, 6.4.4, 6.4.6 and 6.4.7.
- SMTP: sections 3.3 and 3.5 of RFC 5321.

Some behaviour is kept exactly as the code has it:
- **SMTP recipients accumulate.** `PrePerform` only ever appends to the
  recipient list, and only `CleanupSession` empties it. The second send in a
  session therefore also goes to the recipients of the first
  (`Clients.RecipientsAccumulate`). The list is not rebuilt per call.
- **IMAP `SendString` records no message number.** The upload URL reuses
  whatever number an earlier operation stored
  (`Clients.SendStringReusesMessageNumber`).
- **IMAP EXPUNGE follows a failed STORE.** The EXPUNGE is issued when the
  STORE transfer *fails*, and its result is only logged
  (`Clients.StoreFailureExpunges`).
- **A plain scheme can drop STARTTLS.** A host given with a plain scheme,
  such as "pop3://", is switched to SSL mode. In the explicit-upgrade TLS mode
  this drops the STARTTLS requirement (`MailClient.PlainSchemeDropsStartTls`).

Modelling choices:
- The libcurl handle is a boolean, and `curl_easy_init` succeeding is a
  parameter.
- The text target `m_pstrText` is `hasText`.
- Opening a local file is the `opens` parameter.
- The transfer result is `Requests.Outcome`.
- The IMAP `MailProperty` and `SearchOption` are stored as their underlying
  integer values. A C++ `enum class` variable can hold other values, which
  reach the "unknown" failure branch of `PrePerform`.
- The certificate-authority file is a static member shared by every client.
  Here it is a session attribute.

## Model

| member | source | states |
|---|---|---|
| Flags.Or | MAIL/MAILClient.h:194-196 | the combined flags contain both operands' bits and no other bit; each named flag is set iff it is set in either operand |
| Flags.DefaultSettings | MAIL/MAILClient.h:58-65 | `ALL_FLAGS` contains every bit, so logging and both certificate checks are on |
| Flags.TlsMode.Value | MAIL/MAILClient.h:68-73 | the three TLS modes have the distinct values 0, 1 and 2 |
| Flags.TlsBitOnlyInTlsMode | MAIL/MAILClient.h:68-73 | the `ENABLE_TLS` bit test holds for the explicit-upgrade mode and no other |
| Flags.DefaultTlsMode | MAIL/MAILClient.cpp:28 | a new client has no TLS: value 0, no TLS bit |
| Strings.Upper | MAIL/MAILClient.cpp:194-195 | `toupper` over the text keeps its length and upper-cases each ASCII letter in place |
| Streaming.GetLine | MAIL/MAILClient.cpp:484 | `getline` fails exactly on an exhausted stream; otherwise the line has no '\n' and line + "\n" + rest (or line alone, at the end) is the stream; the stream shrinks |
| Streaming.LineEnd | MAIL/MAILClient.cpp:484 | the delimiter search finds the first '\n', or the end |
| Streaming.LineEndSplit | MAIL/MAILClient.cpp:484 | the delimiter search on a '\n'-free line followed by '\n' stops exactly at that '\n' |
| Streaming.LineEndNone | MAIL/MAILClient.cpp:484 | the delimiter search on a '\n'-free text runs to its end |
| Streaming.GetLineSplit | MAIL/MAILClient.cpp:484 | `getline` on a '\n'-free line followed by '\n' extracts exactly that line and leaves the rest |
| Streaming.GetLineLast | MAIL/MAILClient.cpp:484 | `getline` on a '\n'-free text extracts all of it and exhausts the stream |
| Streaming.ReadLineFromString | MAIL/MAILClient.cpp:474-491 | a null stream, a zero-sized buffer or an exhausted stream gives 0 bytes; otherwise the chunk is one line without its '\n', ended by CRLF, and the stream advances past it |
| Streaming.ReadLineFromFile | MAIL/MAILClient.cpp:445-462 | as the string source, and a closed file gives 0 bytes |
| Streaming.ReadsLine | MAIL/MAILClient.cpp:474-491 | a read of a stream holding a '\n'-terminated line hands over that line with CRLF and leaves the rest |
| Streaming.ReadsLast | MAIL/MAILClient.cpp:474-491 | a read of a stream holding one unterminated line hands over that line with CRLF and leaves the stream exhausted |
| Streaming.FramedStep | MAIL/MAILClient.cpp:484-488 | one read call emits exactly the next piece of the CRLF framing of the remaining text |
| Streaming.Upload | MAIL/MAILClient.cpp:474-491 | reading until 0 bytes sends exactly the CRLF framing of the text: every '\n' becomes CRLF, and an unterminated last line gains CRLF; the callback runs once per line of the text plus the final call that answers 0 bytes |
| Streaming.UploadStep | MAIL/MAILClient.cpp:474-491 | one read call returns 0 bytes iff the text is exhausted; otherwise it consumes exactly one line, shortens the text and emits the next piece of its framing |
| Streaming.LineCountByNewlines | MAIL/MAILClient.cpp:484 | the number of lines `getline` yields is the number of '\n' characters, plus one when the text ends in an unterminated line |
| Streaming.LineCountLine | MAIL/MAILClient.cpp:484 | a '\n'-terminated line counts as one line, holds one '\n', and leaves the unterminated-last-line question to the rest |
| Streaming.LineCountLast | MAIL/MAILClient.cpp:484 | an unterminated last line counts as one line and holds no '\n' |
| Streaming.ThreeLineExample | MAIL/MAILClient.cpp:484-488 | "a\nb\nc" goes out as "a\r\n", "b\r\n", "c\r\n", then end of data |
| Streaming.WriteInString | MAIL/MAILClient.cpp:397-406 | a null target takes 0 bytes; otherwise every offered byte is appended after the old text and reported taken |
| Streaming.Collect | MAIL/MAILClient.cpp:397-406 | a download fed chunk by chunk leaves the old text followed by all chunks in order, and the byte count is their total |
| Streaming.CollectToFile | MAIL/MAILClient.cpp:418-433 | a download fed chunk by chunk to an open file leaves its old content followed by all chunks in order; to a closed file it echoes all chunks in order and leaves it closed; the byte count is their total |
| Streaming.WriteToFile | MAIL/MAILClient.cpp:418-433 | a zero-sized buffer or a null stream takes nothing; an open file gains the bytes; a closed one echoes them instead; all bytes are reported taken |
| Urls.Normalise | MAIL/POPClient.cpp:81-103 | SSL is forced iff the host has a scheme; the host text is kept behind the scheme (or as is); the length grows by the scheme and at most one '/'; with the slash option the URL ends in '/' |
| Urls.NormalisedHasScheme | MAIL/POPClient.cpp:81-103 | every normalised URL carries one of the protocol's schemes |
| Urls.NormaliseFixedPoint | MAIL/POPClient.cpp:81-103 | normalising a normalised URL again keeps it and sets SSL mode |
| Urls.SecureSchemeIffSsl | MAIL/POPClient.cpp:91-96 | a host without a scheme gets the SSL scheme iff the mode is implicit SSL |
| Pop.ParseUrl | MAIL/POPClient.cpp:81-103 | the POP3 URL is exactly the host, preceded by "pop3s://" in SSL mode or "pop3://" otherwise unless it already has a POP3 scheme (which forces SSL), followed by '/' only when it does not already end in one |
| Pop.ParseUrlFixedPoint | MAIL/POPClient.cpp:81-103 | the POP3 normalisation is idempotent on the URL |
| Pop.ExampleHostSsl | MAIL/POPClient.cpp:81-103 | "mail.example.com" in SSL mode becomes "pop3s://mail.example.com/" |
| Pop.ExampleHostPlain | MAIL/POPClient.cpp:81-103 | "mail.example.com" without TLS becomes "pop3://mail.example.com/" |
| Pop.Initial | MAIL/POPClient.cpp:9-15 | the POP3 constructor starts at NOOP with no text target, no message number and no local file |
| Pop.Enter | MAIL/POPClient.cpp:23-79 | each POP3 operation records its own kind, message number, text target or local file and keeps every other field |
| Pop.PrePerform | MAIL/POPClient.cpp:114-245 | the POP3 request is refused exactly when the operation table requires a missing text target or message number, or the file cannot be opened; otherwise it is the table's URL suffix, command, sink and no-body flag |
| Pop.UidlIsListWithCommand | MAIL/POPClient.cpp:148-160 | UIDL falls through to LIST: the same request with the "UIDL" command |
| Pop.PostPerform | MAIL/POPClient.cpp:256-265 | always succeeds; closes the file after RETR to a file and leaves it as it is otherwise |
| Pop.OnlyRetrFileOpensFile | MAIL/POPClient.cpp:195-217 | the only POP3 request with a local file is RETR to a file |
| Imap.PropertyKeyword | MAIL/IMAPClient.cpp:413-431 | a stored property value has a STORE flag name iff it is one of the six enumerators |
| Imap.SearchKeyword | MAIL/IMAPClient.cpp:382-401 | a stored option value has a SEARCH key iff it is one of the seven enumerators |
| Imap.PropertyKeywordExact | MAIL/IMAPClient.cpp:413-431 | each property maps to a system flag of section 2.3.2 of RFC 3501, which names it back |
| Imap.SearchKeywordExact | MAIL/IMAPClient.cpp:382-401 | each search option maps to a search key that names it back |
| Imap.ParseUrl | MAIL/IMAPClient.cpp:135-157 | the IMAP URL is exactly the host, preceded by "imaps://" in SSL mode or "imap://" otherwise unless it already has an IMAP scheme (which forces SSL), followed by '/' only when it does not already end in one |
| Imap.ParseUrlFixedPoint | MAIL/IMAPClient.cpp:135-157 | the IMAP normalisation is idempotent on the URL |
| Imap.Initial | MAIL/IMAPClient.cpp:9-17 | the IMAP constructor starts at NOOP with no text target, the property `Flagged` (STORE flag "Flagged"), the search option `FLAGGED` (SEARCH key "FLAGGED") and empty mail, message number, folder and local file |
| Imap.Enter | MAIL/IMAPClient.cpp:25-133 | each IMAP operation records its own arguments and keeps every other field; `SendString` keeps the old message number |
| Imap.PrePerform | MAIL/IMAPClient.cpp:168-453 | the IMAP request is refused exactly when a required text target, message number or folder is missing, a file cannot be opened, or a stored property or option value is unknown; otherwise it is the table's URL suffix, command, sink, upload and no-body flag |
| Imap.OnlyFileOperationsOpenFile | MAIL/IMAPClient.cpp:464-466 | the IMAP requests with a local file are exactly the two file operations, which `PostPerform` closes |
| Imap.PostPerform | MAIL/IMAPClient.cpp:464-489 | always succeeds; closes the file after the two file operations; issues the same request as EXPUNGE iff a STORE transfer failed |
| Smtp.ParseUrl | MAIL/SMTPClient.cpp:56-75 | a host with an SMTP scheme is kept verbatim with SSL forced; otherwise "smtps://" or "smtp://" goes in front of the unchanged host |
| Smtp.ParseUrlFixedPoint | MAIL/SMTPClient.cpp:56-75 | the SMTP normalisation is idempotent on the URL |
| Smtp.Wrap | MAIL/SMTPClient.cpp:192-198 | the VRFY address gains a '<' in front exactly when it does not start with one and a '>' at the end exactly when it does not end with one, each end checked on its own |
| Smtp.WrapIdempotent | MAIL/SMTPClient.cpp:192-198 | wrapping twice is wrapping once |
| Smtp.WrapKeepsAddress | MAIL/SMTPClient.cpp:192-198 | the original address sits intact inside the wrapped one |
| Smtp.WrapBare | MAIL/SMTPClient.cpp:192-198 | an address with no brackets gains exactly one on each side |
| Smtp.Initial | MAIL/SMTPClient.cpp:9-14 | the SMTP constructor starts at send-a-string with empty sender, recipient, copy, body, list name and local file |
| Smtp.Enter | MAIL/SMTPClient.cpp:16-54 | each SMTP operation records its own sender, recipients, body, list name or file and keeps the rest |
| Smtp.PrePerform | MAIL/SMTPClient.cpp:86-227 | refused exactly when sender or recipient (or the file) is missing or the file cannot be opened; otherwise the request goes to the base URL, the recipient list only grows (To, then Cc if given; the wrapped address; the list name), and MAIL FROM, EXPN and the upload match the operation |
| Smtp.PostPerform | MAIL/SMTPClient.cpp:238-247 | always succeeds; closes the file exactly after SEND_FILE |
| MailClient.ParseUrl | MAIL/MAILClient.h:135 | the base class keeps the host and mode; each protocol class applies its own `ParseURL` (POP3, IMAP, SMTP), which prepends a scheme or forces SSL |
| MailClient.NewSession | MAIL/MAILClient.cpp:24-33 | a new client has empty strings, no handle, no recipients, timeout 0, all flags on, no TLS |
| MailClient.InitSession | MAIL/MAILClient.cpp:84-114 | an empty host or a live handle fails and changes nothing; otherwise credentials, flags and the normalised URL and mode are stored and success is exactly a live handle; nothing else changes |
| MailClient.InitSessionDefaults | MAIL/MAILClient.h:104-108 | the default arguments turn both certificate checks on |
| MailClient.CleanupSession | MAIL/MAILClient.cpp:129-165 | succeeds iff a handle was live; afterwards no handle is live, the recipient list is empty after a success, and nothing else changes |
| MailClient.DoubleInitFails | MAIL/MAILClient.cpp:97-103 | a second `InitSession` fails and keeps the session |
| MailClient.CleanupCycle | MAIL/MAILClient.cpp:129-165 | after init, the first cleanup succeeds, a second fails, and init works again |
| MailClient.ProxyUri | MAIL/MAILClient.cpp:194-200 | the stored proxy starts with "HTTP" in any case and ends with the argument; it equals the argument iff that already starts so, and otherwise it is "http://" followed by the argument |
| MailClient.ProxyUriIdempotent | MAIL/MAILClient.cpp:194-200 | storing a stored proxy address keeps it |
| MailClient.SetProxy | MAIL/MAILClient.cpp:189-201 | an empty proxy changes nothing; otherwise only the proxy changes |
| MailClient.ProxyExample | TestMAIL/main.cpp:165-176 | "my_proxy" is stored as "http://my_proxy" |
| MailClient.Get | MAIL/MAILClient.h:87-122 | each getter returns its own attribute: the timeout, the no-signal switch, the CA bundle, the certificate, the key and the key password |
| MailClient.Set | MAIL/MAILClient.h:87-122 | a setter's value is read back by its getter, every other getter is unaffected, and the handle, address and credentials are untouched |
| MailClient.SetTwice | MAIL/MAILClient.h:87-122 | the last value set wins |
| MailClient.SetProgressFnCallback | MAIL/MAILClient.cpp:174-181 | registers the progress callback and changes nothing else |
| MailClient.DeriveOptions | MAIL/MAILClient.cpp:233-318 | STARTTLS is required iff the mode is explicit upgrade; the certificate checks follow the flags; each optional path, the timeout and the proxy are set iff non-empty or positive; the proxy implies tunnelling; signals are off iff there is a timeout or no-signal is asked |
| MailClient.SetterReachesTransfer | MAIL/MAILClient.cpp:272-318 | after each setter the next transfer uses the value set: a positive timeout is passed on and turns signals off, a non-positive one is not set; non-empty certificate, key and password paths are passed on |
| MailClient.ProxyReachesTransfer | MAIL/MAILClient.cpp:189-201 | after a non-empty `SetProxy`, transfers use the stored proxy address through a tunnel; an empty one changes no transfer option |
| MailClient.StartTlsUnlessScheme | MAIL/POPClient.cpp:86-90 | after `InitSession`, STARTTLS is required iff the explicit-upgrade mode was asked for and, for a protocol class, the host carried none of its schemes |
| MailClient.DefaultsVerify | MAIL/MAILClient.cpp:272-290 | with the defaults both certificate checks stay on and there is no timeout, no proxy and no no-signal |
| MailClient.PlainSchemeDropsStartTls | MAIL/POPClient.cpp:86-90 | "pop3://h" in explicit-upgrade mode ends in SSL mode without STARTTLS, while "h" keeps STARTTLS |
| MailClient.BaseSessionExample | TestMAIL/main.cpp:160-174 | the base class stores "localhost" verbatim, the credentials, and `ENABLE_LOG \| VERIFY_PEER` as 0x03 |
| Clients.New | MAIL/MAILClient.cpp:24-33 | a new client of each class has the default session and no text target; a POP3 client starts at NOOP with no message number, an IMAP client at NOOP with no message number, property `Flagged` and search option `FLAGGED` (IMAPClient.cpp:9-17), an SMTP client at send-a-string |
| Clients.Init | MAIL/MAILClient.cpp:104-113 | init succeeds iff the host is non-empty, no handle was live and the allocation succeeded, using the class's address normalisation |
| Clients.Cleanup | MAIL/POPClient.cpp:17-21 | cleanup succeeds iff a handle was live and drops the text target even when it fails |
| Clients.PrePerform | MAIL/MAILClient.h:131 | the class's own `PrePerform` decides: the base class sends the blank request, POP3 and IMAP send their class's request and keep the client, SMTP sends its request and stores its new state and recipient list; refused exactly when the class refuses; only the recipient list changes, by growing; a request with a file belongs to an operation whose `PostPerform` closes it |
| Clients.PostPerform | MAIL/MAILClient.h:134 | always succeeds; a follow-up exists iff an IMAP STORE failed; a file is closed after a file operation and never opened |
| Clients.Perform | MAIL/MAILClient.cpp:211-347 | no handle or a refusal sends nothing and changes nothing; otherwise the session's options go out, success is exactly a successful transfer, no local file is left open, EXPUNGE follows iff a STORE failed, and only the recipient list changes, by growing; the request sent and the client left are the ones the class's `PrePerform` produced |
| Clients.Enter | MAIL/POPClient.cpp:23-79 | each entry point records its arguments through its own class's bookkeeping (also IMAPClient.cpp:25-132 and SMTPClient.cpp:16-54), touches no session attribute and keeps the client's class |
| Clients.Invoke | MAIL/POPClient.cpp:23-79 | every entry point returns `Perform` on the recorded arguments (also IMAPClient.cpp:25-132 and SMTPClient.cpp:16-54): before init it fails but keeps them; it succeeds exactly with a live handle, a descriptor its class accepts and a successful transfer; the request sent is the one its class's `PrePerform` plans |
| Clients.CallsFailBeforeInit | MAIL/MAILClient.cpp:215-221 | every operation of every class fails before `InitSession` |
| Clients.SmtpInvokeStep | MAIL/SMTPClient.cpp:86-227 | an SMTP call on a live handle that its checks accept sends the SMTP request and keeps the recipient list that request built in the session |
| Clients.RecipientsAccumulate | MAIL/SMTPClient.cpp:111-116 | the second send of a session is addressed to the first send's recipient as well |
| Clients.VerifyAppendsOnce | MAIL/SMTPClient.cpp:40-45 | one `VerifyAddress` call on a live session sends its request, keeps the handle live and appends the address in angle brackets to the recipient list |
| Clients.VerifyTwiceAppendsTwice | MAIL/SMTPClient.cpp:40-45 | two `VerifyAddress` calls for one address in one session append its bracketed form twice, since each call stores the raw address again and nothing resets the list |
| Clients.CleanupForgetsRecipients | MAIL/MAILClient.cpp:149-162 | after cleanup and a new init, a send goes to its own recipient only |
| Clients.SendStringReusesMessageNumber | MAIL/IMAPClient.cpp:42-48 | an IMAP upload after a fetch of message m is sent to the base URL + m |
| Clients.FreshImapUploadToBareUrl | MAIL/IMAPClient.cpp:42-48 | on a freshly constructed and initialised IMAP client, an upload is sent to the session URL itself, uploading the given mail |
| Clients.StoreFailureExpunges | MAIL/IMAPClient.cpp:471-486 | a failed STORE reports failure and is followed by EXPUNGE on the same request; a successful one is not |
| Clients.RetrFileOpensAndCloses | MAIL/POPClient.cpp:195-217 | a POP3 download to a file that does not open sends nothing; one that opens writes to that file and leaves it closed |

## Left out

- The libcurl calls themselves are left out: `curl_easy_init`, `_reset`, `_setopt`, `_perform`, `_cleanup` and `curl_slist_*`. Requests and options are values, and the transfer result is a parameter.
- The global init counter, its mutex and `curl_global_init`/`curl_global_cleanup` in the constructor and destructor are left out: process-wide concurrency.
- The destructor's automatic cleanup and its warning are left out.
- `CurlHandle` is not part of this model.
- Logging and `StringFormat` are left out: they are text formatting for the log callback and have no effect on results.
- The `DEBUG_CURL` trace directory and its callbacks are left out: debug-only.
- `ReadFromFileCallback` is left out: no operation installs it.
- The progress callback function, its owner pointer and `ProgressFnStruct` are left out: foreign code. Only the "registered" flag is modelled.
- The `memcpy` of a line into libcurl's buffer does not check that the line fits in `size * nmemb`. Chunks are modelled as values, so that overflow is not represented.
- `WriteToFile`'s echo is modelled as the text written to standard output, not as I/O.
- The certificate-authority file is a static member shared by all clients. It is modelled per session, so one client's setting is not seen by another.
- `Streaming.Capacity` assumes a 64-bit `size_t`.
- `Clients.Invoke` takes the C++ default arguments of `List` (folder "") and `Search` (`NEW`) explicitly.
- `Streaming.Upload` models the string line source. The file source differs only in answering 0 bytes for a closed file (`Streaming.ReadLineFromFile`).
- `Clients.Perform` is stated for a client whose local file is closed on entry, which every entry point ensures. Re-opening an already open `std::fstream` is not modelled.
- The IMAP EXPUNGE follow-up's own result is not modelled, because the source only logs it.

=== FILE: clients.dfy ===
/** A whole client: the session of `CMailClient` together with the operation
    descriptor of its protocol class, and `CMailClient::Perform`, which runs
    the class's `PrePerform`, sets the session's transport options, performs
    the transfer and runs the class's `PostPerform`. The transfer itself is
    the `code` parameter. */
module Clients {
  import opened Wrappers
  import opened Flags
  import opened Requests
  import opened MailClient
  import Pop
  import Imap
  import Smtp

  /** The protocol part of a client: the base class has none. */
  datatype Adapter =
    | Base
    | PopAdapter(popState: Pop.State)
    | ImapAdapter(imapState: Imap.State)
    | SmtpAdapter(smtpState: Smtp.State)

  function KindOf(a: Adapter): Kind
  {
    match a
    case Base => BaseClient
    case PopAdapter(_) => PopClient
    case ImapAdapter(_) => ImapClient
    case SmtpAdapter(_) => SmtpClient
  }

  datatype Client = Client(session: Session, adapter: Adapter)

  /** A freshly constructed client of the given class. */
  function New(k: Kind): (c: Client)
    ensures KindOf(c.adapter) == k && c.session == NewSession()
    ensures !HasText(c.adapter)
    ensures c.adapter.PopAdapter? ==> c.adapter.popState.op == Pop.Pop3Noop && c.adapter.popState.msgNumber == []
    ensures c.adapter.ImapAdapter? ==>
              var st := c.adapter.imapState;
              && st.op == Imap.ImapNoop && st.msgNumber == []
              && st.property == Imap.PropertyCode(Imap.Flagged) && st.search == Imap.SearchCode(Imap.FLAGGED)
    ensures c.adapter.SmtpAdapter? ==> c.adapter.smtpState.op == Smtp.SmtpSendString
  {
    match k
    case BaseClient => Client(NewSession(), Base)
    case PopClient => Client(NewSession(), PopAdapter(Pop.Initial()))
    case ImapClient => Client(NewSession(), ImapAdapter(Imap.Initial()))
    case SmtpClient => Client(NewSession(), SmtpAdapter(Smtp.Initial()))
  }

  datatype ClientAnswer = ClientAnswer(ok: bool, client: Client)

  /** `InitSession`, with the class's `ParseURL`. */
  function Init(c: Client, host: string, login: string, pwd: string,
                settings: bv8, tls: TlsMode, allocOk: bool): (r: ClientAnswer)
    ensures r.ok <==> host != [] && !c.session.handle && allocOk
    ensures r.client.adapter == c.adapter
    ensures r.client.session == InitSession(KindOf(c.adapter), c.session, host, login, pwd, settings, tls, allocOk).session
  {
    var a := InitSession(KindOf(c.adapter), c.session, host, login, pwd, settings, tls, allocOk);
    ClientAnswer(a.ok, c.(session := a.session))
  }

  /** Whether the client holds a text target (`m_pstrText` is not null). */
  predicate HasText(a: Adapter)
  {
    match a
    case PopAdapter(st) => st.hasText
    case ImapAdapter(st) => st.hasText
    case _ => false
  }

  /** `CleanupSession`, with the POP3 and IMAP overrides, which drop the text
      target first, even when the base cleanup then fails. */
  function Cleanup(c: Client): (r: ClientAnswer)
    ensures r.ok <==> c.session.handle
    ensures r.client.session == CleanupSession(c.session).session
    ensures !HasText(r.client.adapter) && KindOf(r.client.adapter) == KindOf(c.adapter)
  {
    var a := match c.adapter
             case PopAdapter(st) => PopAdapter(st.(hasText := false))
             case ImapAdapter(st) => ImapAdapter(st.(hasText := false))
             case other => other;
    var b := CleanupSession(c.session);
    ClientAnswer(b.ok, Client(b.session, a))
  }

  /** The class's `PrePerform` refuses the descriptor. */
  predicate Refuses(c: Client, opens: bool)
  {
    match c.adapter
    case Base => false
    case PopAdapter(st) => Pop.Refused(st, opens)
    case ImapAdapter(st) => Imap.Refused(st, opens)
    case SmtpAdapter(st) => Smtp.Refused(st, opens)
  }

  /** The operation is one whose `PostPerform` closes the local file. */
  predicate ClosesFile(a: Adapter)
  {
    match a
    case PopAdapter(st) => st.op == Pop.Pop3RetrFile
    case ImapAdapter(st) => st.op in {Imap.ImapSendFile, Imap.ImapRetrFile}
    case SmtpAdapter(st) => st.op == Smtp.SmtpSendFile
    case Base => false
  }

  /** An accepted `PrePerform`: the request and the client as it leaves it. */
  datatype Prepared = Prepared(request: Request, client: Client)

  /** The virtual `PrePerform` on the session's URL. The base class's
      version accepts and leaves the handle as `curl_easy_reset` left it. */
  function PrePerform(c: Client, opens: bool): (r: Option<Prepared>)
    ensures r.None? <==> Refuses(c, opens)
    ensures r.Some? ==> KindOf(r.value.client.adapter) == KindOf(c.adapter)
    ensures r.Some? ==> r.value.client.session == c.session.(recipients := r.value.client.session.recipients)
    ensures r.Some? ==> |c.session.recipients| <= |r.value.client.session.recipients|
                        && r.value.client.session.recipients[..|c.session.recipients|] == c.session.recipients
    ensures r.Some? && OpensFile(r.value.request) ==> ClosesFile(r.value.client.adapter)
    ensures c.adapter.Base? ==> r == Some(Prepared(Blank(), c))
    ensures c.adapter.PopAdapter? && r.Some? ==>
              r.value == Prepared(Pop.PrePerform(c.session.url, c.adapter.popState, opens).value, c)
    ensures c.adapter.ImapAdapter? && r.Some? ==>
              r.value == Prepared(Imap.PrePerform(c.session.url, c.adapter.imapState, opens).value, c)
    ensures c.adapter.SmtpAdapter? && r.Some? ==>
              var p := Smtp.PrePerform(c.session.url, c.adapter.smtpState, c.session.recipients, opens).value;
              && r.value.request == p.request
              && r.value.client.session.recipients == p.recipients
              && r.value.client.adapter == SmtpAdapter(p.state)
  {
    match c.adapter
    case Base => Some(Prepared(Blank(), c))
    case PopAdapter(st) =>
      var p := Pop.PrePerform(c.session.url, st, opens);
      if p.None? then None
      else
        Pop.OnlyRetrFileOpensFile(c.session.url, st, opens);
        Some(Prepared(p.value, c))
    case ImapAdapter(st) =>
      var p := Imap.PrePerform(c.session.url, st, opens);
      if p.None? then None
      else
        Imap.OnlyFileOperationsOpenFile(c.session.url, st, opens);
        Some(Prepared(p.value, c))
    case SmtpAdapter(st) =>
      var p := Smtp.PrePerform(c.session.url, st, c.session.recipients, opens);
      if p.None? then None
      else Some(Prepared(p.value.request, Client(c.session.(recipients := p.value.recipients), SmtpAdapter(p.value.state))))
  }

  /** What the class's `PostPerform` leaves: its result, whether the local
      file is still open, and the follow-up request issued, if any. */
  datatype Finished = Finished(ok: bool, fileOpen: bool, followUp: Option<Request>)

  /** The virtual `PostPerform`. */
  function PostPerform(a: Adapter, request: Request, fileOpen: bool, code: Outcome): (r: Finished)
    ensures r.ok
    ensures r.followUp.Some? <==> a.ImapAdapter? && a.imapState.op == Imap.ImapStore && code == Err
    ensures ClosesFile(a) ==> !r.fileOpen
    ensures !fileOpen ==> !r.fileOpen
  {
    match a
    case Base => Finished(true, fileOpen, None)
    case PopAdapter(st) => var f := Pop.PostPerform(st, fileOpen); Finished(f.ok, f.fileOpen, None)
    case ImapAdapter(st) => var f := Imap.PostPerform(st, request, fileOpen, code); Finished(f.ok, f.fileOpen, f.followUp)
    case SmtpAdapter(st) => var f := Smtp.PostPerform(st, fileOpen); Finished(f.ok, f.fileOpen, None)
  }

  /** Everything an accepted `Perform` sends: the session's transport options,
      the class's request, the follow-up request, and whether the local file
      is left open afterwards. */
  datatype Exchange = Exchange(options: TransportOptions, request: Request, followUp: Option<Request>, fileLeftOpen: bool)

  datatype PerformResult = PerformResult(ok: bool, client: Client, exchange: Option<Exchange>)

  /** `CMailClient::Perform`; `opens` says whether opening a local file
      succeeds, `code` is the transfer's result. Without a handle, or when
      `PrePerform` refuses, nothing is sent and nothing changes. Otherwise
      the request goes out with the session's options, the call succeeds
      exactly when the transfer did, every local file opened is closed again,
      and the session changes in its recipient list only, which only grows. */
  function Perform(c: Client, opens: bool, code: Outcome): (r: PerformResult)
    ensures !c.session.handle ==> r == PerformResult(false, c, None)
    ensures r.exchange.Some? <==> c.session.handle && !Refuses(c, opens)
    ensures r.exchange.None? ==> r == PerformResult(false, c, None)
    ensures r.ok <==> r.exchange.Some? && code == Ok
    ensures r.exchange.Some? ==> r.exchange.value.options == DeriveOptions(c.session)
    ensures r.exchange.Some? ==> !r.exchange.value.fileLeftOpen
    ensures r.exchange.Some? ==> (r.exchange.value.followUp.Some? <==>
                                   c.adapter.ImapAdapter? && c.adapter.imapState.op == Imap.ImapStore && code == Err)
    ensures r.client.session == c.session.(recipients := r.client.session.recipients)
    ensures |c.session.recipients| <= |r.client.session.recipients|
            && r.client.session.recipients[..|c.session.recipients|] == c.session.recipients
    ensures KindOf(r.client.adapter) == KindOf(c.adapter)
    ensures r.exchange.Some? ==> PrePerform(c, opens).Some?
                                 && r.exchange.value.request == PrePerform(c, opens).value.request
                                 && r.client == PrePerform(c, opens).value.client
  {
    if !c.session.handle then PerformResult(false, c, None)
    else
      match PrePerform(c, opens)
      case None => PerformResult(false, c, None)
      case Some(p) =>
        var options := DeriveOptions(p.client.session);
        var post := PostPerform(p.client.adapter, p.request, OpensFile(p.request), code);
        var ok := post.ok && code == Ok;
        PerformResult(ok, p.client, Some(Exchange(options, p.request, post.followUp, post.fileOpen)))
  }

  /** A public operation of one of the protocol classes. */
  datatype Call = PopCall(popCall: Pop.Call) | ImapCall(imapCall: Imap.Call) | SmtpCall(smtpCall: Smtp.Call)

  /** The operation belongs to the client's class. */
  predicate Accepts(a: Adapter, call: Call)
  {
    (a.PopAdapter? && call.PopCall?) || (a.ImapAdapter? && call.ImapCall?) || (a.SmtpAdapter? && call.SmtpCall?)
  }

  /** The operation's body before `Perform`: it records its arguments. */
  function Enter(c: Client, call: Call): (r: Client)
    requires Accepts(c.adapter, call)
    ensures r.session == c.session && KindOf(r.adapter) == KindOf(c.adapter)
    ensures call.PopCall? ==> r.adapter == PopAdapter(Pop.Enter(c.adapter.popState, call.popCall))
    ensures call.ImapCall? ==> r.adapter == ImapAdapter(Imap.Enter(c.adapter.imapState, call.imapCall))
    ensures call.SmtpCall? ==> r.adapter == SmtpAdapter(Smtp.Enter(c.adapter.smtpState, call.smtpCall))
  {
    match call
    case PopCall(pc) => c.(adapter := PopAdapter(Pop.Enter(c.adapter.popState, pc)))
    case ImapCall(ic) => c.(adapter := ImapAdapter(Imap.Enter(c.adapter.imapState, ic)))
    case SmtpCall(sc) => c.(adapter := SmtpAdapter(Smtp.Enter(c.adapter.smtpState, sc)))
  }

  /** A public operation: records its arguments, then `Perform`. The recorded
      arguments stay even when `Perform` fails. */
  function Invoke(c: Client, call: Call, opens: bool, code: Outcome): (r: PerformResult)
    requires Accepts(c.adapter, call)
    ensures !c.session.handle ==> r == PerformResult(false, Enter(c, call), None)
    ensures r.ok ==> c.session.handle && code == Ok
    ensures r.ok <==> c.session.handle && !Refuses(Enter(c, call), opens) && code == Ok
    ensures r.exchange.Some? ==> PrePerform(Enter(c, call), opens).Some?
                                 && r.exchange.value.request == PrePerform(Enter(c, call), opens).value.request
                                 && r.client == PrePerform(Enter(c, call), opens).value.client
    ensures KindOf(r.client.adapter) == KindOf(c.adapter)
  {
    Perform(Enter(c, call), opens, code)
  }

  /** Before `InitSession`, every operation of every class fails. */
  lemma CallsFailBeforeInit(k: Kind, call: Call, opens: bool, code: Outcome)
    requires Accepts(New(k).adapter, call)
    ensures !Invoke(New(k), call, opens, code).ok
  {
  }

  /** The SMTP recipient list is never reset between operations: a second
      send in the same session goes to the first send's recipient too. */
  lemma RecipientsAccumulate(c: Client, from: string, to1: string, to2: string, mail: string, code: Outcome)
    requires c.adapter.SmtpAdapter? && c.session.handle
    requires from != [] && to1 != [] && to2 != []
    ensures var first := Invoke(c, SmtpCall(Smtp.SendString(from, to1, [], mail)), true, code);
            var second := Invoke(first.client, SmtpCall(Smtp.SendString(from, to2, [], mail)), true, code);
            && second.exchange.Some?
            && second.exchange.value.request.recipients == Some(c.session.recipients + [to1, to2])
  {
    var call1 := Smtp.SendString(from, to1, [], mail);
    var call2 := Smtp.SendString(from, to2, [], mail);
    SmtpInvokeStep(c, call1, code);
    var first := Invoke(c, SmtpCall(call1), true, code);
    var once := c.session.recipients + [to1];
    assert Smtp.Added(Smtp.Enter(c.adapter.smtpState, call1)) == [to1];
    assert first.client.session.recipients == once;
    var st := Smtp.Enter(first.client.adapter.smtpState, call2);
    assert st.op == Smtp.SmtpSendString && st.from == from && st.to == to2 && st.cc == [];
    SmtpInvokeStep(first.client, call2, code);
    var second := Invoke(first.client, SmtpCall(call2), true, code);
    assert Smtp.Added(st) == [to2];
    assert second.exchange.value.request.recipients == Some(once + [to2]);
    assert once + [to2] == c.session.recipients + [to1, to2];
  }

  /** An accepted SMTP call on a live session sends the request SMTP's
      `PrePerform` plans and leaves the client with its new descriptor and
      recipient list. */
  lemma SmtpInvokeStep(c: Client, call: Smtp.Call, code: Outcome)
    requires c.adapter.SmtpAdapter? && c.session.handle
    requires !Smtp.Refused(Smtp.Enter(c.adapter.smtpState, call), true)
    ensures var p := Smtp.PrePerform(c.session.url, Smtp.Enter(c.adapter.smtpState, call), c.session.recipients, true);
            var r := Invoke(c, SmtpCall(call), true, code);
            && p.Some? && r.exchange.Some? && r.exchange.value.request == p.value.request
            && r.client == Client(c.session.(recipients := p.value.recipients), SmtpAdapter(p.value.state))
  {
    var e := Enter(c, SmtpCall(call));
    assert e.adapter == SmtpAdapter(Smtp.Enter(c.adapter.smtpState, call));
    assert !Refuses(e, true);
  }

  /** One `VerifyAddress` call on a live SMTP session sends its request and
      appends the bracketed address to the recipient list, keeping the
      session live for the next call. */
  lemma VerifyAppendsOnce(c: Client, address: string, code: Outcome)
    requires c.adapter.SmtpAdapter? && c.session.handle && address != []
    ensures var r := Invoke(c, SmtpCall(Smtp.VerifyAddress(address)), true, code);
            && r.exchange.Some? && r.client.adapter.SmtpAdapter? && r.client.session.handle
            && r.client.session.recipients == c.session.recipients + [Smtp.Wrap(address)]
  {
    var call := Smtp.VerifyAddress(address);
    var st := Smtp.Enter(c.adapter.smtpState, call);
    assert st.op == Smtp.SmtpVrfy && st.to == address;
    assert Smtp.Added(st) == [Smtp.Wrap(address)];
    SmtpInvokeStep(c, call, code);
  }

  /** Verifying the same address twice appends it, wrapped in angle brackets,
      once per call: each `VerifyAddress` stores the raw address again before
      `Perform`, and neither call resets the list. */
  lemma VerifyTwiceAppendsTwice(c: Client, address: string, code: Outcome)
    requires c.adapter.SmtpAdapter? && c.session.handle && address != []
    ensures var first := Invoke(c, SmtpCall(Smtp.VerifyAddress(address)), true, code);
            var second := Invoke(first.client, SmtpCall(Smtp.VerifyAddress(address)), true, code);
            && first.exchange.Some? && second.exchange.Some?
            && second.client.session.recipients == c.session.recipients + [Smtp.Wrap(address), Smtp.Wrap(address)]
  {
    var w := Smtp.Wrap(address);
    VerifyAppendsOnce(c, address, code);
    var first := Invoke(c, SmtpCall(Smtp.VerifyAddress(address)), true, code);
    VerifyAppendsOnce(first.client, address, code);
    assert c.session.recipients + [w] + [w] == c.session.recipients + [w, w];
  }

  /** `CleanupSession` followed by `InitSession` starts a fresh recipient list. */
  lemma CleanupForgetsRecipients(c: Client, host: string, from: string, to: string, mail: string, code: Outcome)
    requires c.adapter.SmtpAdapter? && c.session.handle && host != []
    requires from != [] && to != []
    ensures var renewed := Init(Cleanup(c).client, host, [], [], AllFlags, NoSslTls, true).client;
            var sent := Invoke(renewed, SmtpCall(Smtp.SendString(from, to, [], mail)), true, code);
            && sent.exchange.Some?
            && sent.exchange.value.request.recipients == Some([to])
  {
    var renewed := Init(Cleanup(c).client, host, [], [], AllFlags, NoSslTls, true).client;
    assert renewed.session.handle && renewed.session.recipients == [];
    var e := Enter(renewed, SmtpCall(Smtp.SendString(from, to, [], mail)));
    var p := Smtp.PrePerform(renewed.session.url, e.adapter.smtpState, [], true);
    assert p.Some? && p.value.recipients == [to];
  }

  /** On a new IMAP client, the first `SendString` uploads to the bare URL:
      the message number it appends is still the empty default. */
  lemma FreshImapUploadToBareUrl(host: string, login: string, pwd: string, settings: bv8, tls: TlsMode,
                                 mail: string, opens: bool, code: Outcome)
    requires host != []
    ensures var c := Init(New(ImapClient), host, login, pwd, settings, tls, true).client;
            var r := Invoke(c, ImapCall(Imap.SendString(mail)), opens, code);
            && r.exchange.Some?
            && r.exchange.value.request.url == c.session.url
            && r.exchange.value.request.upload == StringSource(mail)
  {
  }

  /** IMAP `SendString` does not record a message number: the number of an
      earlier operation, however old, becomes the upload URL's suffix. */
  lemma SendStringReusesMessageNumber(c: Client, msg: string, mail: string, opens: bool, code: Outcome)
    requires c.adapter.ImapAdapter? && c.session.handle
    ensures var first := Invoke(c, ImapCall(Imap.GetString(msg)), opens, code);
            var second := Invoke(first.client, ImapCall(Imap.SendString(mail)), opens, code);
            && second.exchange.Some?
            && second.exchange.value.request.url == c.session.url + msg
            && second.exchange.value.request.upload == StringSource(mail)
  {
    var first := Invoke(c, ImapCall(Imap.GetString(msg)), opens, code);
    assert first.client.adapter.imapState.msgNumber == msg;
  }

  /** A STORE whose transfer fails is reported as failed, and the same request
      is reissued as EXPUNGE on the handle; a STORE that succeeds issues
      nothing more. */
  lemma StoreFailureExpunges(c: Client, msg: string, p: Imap.MailProperty, opens: bool)
    requires c.adapter.ImapAdapter? && c.session.handle && msg != []
    ensures var failed := Invoke(c, ImapCall(Imap.SetMailProperty(msg, p)), opens, Err);
            && !failed.ok && failed.exchange.Some?
            && failed.exchange.value.followUp == Some(failed.exchange.value.request.(command := Some("EXPUNGE")))
    ensures var stored := Invoke(c, ImapCall(Imap.SetMailProperty(msg, p)), opens, Ok);
            stored.ok && stored.exchange.Some? && stored.exchange.value.followUp.None?
  {
    Imap.PropertyKeywordExact(p);
  }

  /** A POP3 download to a file that cannot be opened fails before any
      transfer; one that can be opened leaves the file closed afterwards. */
  lemma RetrFileOpensAndCloses(c: Client, msg: string, path: string, code: Outcome)
    requires c.adapter.PopAdapter? && c.session.handle && msg != []
    ensures Invoke(c, PopCall(Pop.GetFile(msg, path)), false, code).exchange.None?
    ensures var r := Invoke(c, PopCall(Pop.GetFile(msg, path)), true, code);
            r.exchange.Some? && r.exchange.value.request.sink == FileSink(path) && !r.exchange.value.fileLeftOpen
  {
  }
}

=== FILE: flags.dfy ===
/** The two flag sets a session is configured with (MAIL/MAILClient.h):
    `SettingsFlag`, a bit set combined with `operator|`, and `SslTlsFlag`, three
    values that are not meant to be combined and are modelled as a closed type. */
module Flags {

  /** Values of `SettingsFlag`; the session stores the combination as one byte. */
  const NoFlags: bv8 := 0x00
  const EnableLog: bv8 := 0x01
  const VerifyPeer: bv8 := 0x02
  const VerifyHost: bv8 := 0x04
  const AllFlags: bv8 := 0xFF

  /** `settings & flag` is non-zero. */
  predicate Has(settings: bv8, flag: bv8)
  {
    settings & flag != 0
  }

  /** `operator|` on `SettingsFlag`: the bitwise OR of the underlying values.
      The result keeps every bit of both operands and adds no other bit. */
  function Or(a: bv8, b: bv8): (r: bv8)
    ensures r & a == a && r & b == b
    ensures r & !a & !b == 0
    ensures Has(r, EnableLog) <==> Has(a, EnableLog) || Has(b, EnableLog)
    ensures Has(r, VerifyPeer) <==> Has(a, VerifyPeer) || Has(b, VerifyPeer)
    ensures Has(r, VerifyHost) <==> Has(a, VerifyHost) || Has(b, VerifyHost)
  {
    a | b
  }

  /** The settings a fresh client holds and `InitSession` defaults to: every
      flag, so logging and both certificate checks are on. */
  function DefaultSettings(): (f: bv8)
    ensures Has(f, EnableLog) && Has(f, VerifyPeer) && Has(f, VerifyHost)
    ensures forall g: bv8 {:trigger g & f} :: g & f == g
  {
    AllFlags
  }

  /** `SslTlsFlag`: no encryption, STARTTLS/STLS upgrade, or implicit SSL by scheme. */
  datatype TlsMode = NoSslTls | EnableTls | EnableSsl {

    /** The enumerator's numeric value; distinct modes have distinct values. */
    function Value(): (v: bv8)
      ensures v <= 2
      ensures v == 0 <==> this == NoSslTls
      ensures v == 1 <==> this == EnableTls
      ensures v == 2 <==> this == EnableSsl
    {
      match this
      case NoSslTls => 0x00
      case EnableTls => 0x01
      case EnableSsl => 0x02
    }

    /** `mode & ENABLE_TLS` is non-zero: only the explicit-upgrade mode carries the bit. */
    predicate HasTlsBit()
    {
      Value() & 0x01 != 0
    }
  }

  /** The TLS bit test of `Perform` picks out exactly the explicit-upgrade mode. */
  lemma TlsBitOnlyInTlsMode(m: TlsMode)
    ensures m.HasTlsBit() <==> m == EnableTls
  {
  }

  /** The default TLS mode of a fresh client and of `InitSession`. */
  function DefaultTlsMode(): (m: TlsMode)
    ensures !m.HasTlsBit() && m.Value() == 0
  {
    NoSslTls
  }
}

=== FILE: imap.dfy ===
/** The IMAP client (MAIL/IMAPClient.h, MAIL/IMAPClient.cpp): address
    normalisation, the entry points, and the planning of the request each of
    the thirteen operations issues (IMAP4rev1 commands of RFC 3501: NOOP of
    section 6.1.2, EXAMINE 6.3.2, CREATE 6.3.3, DELETE 6.3.4, LSUB 6.3.9,
    EXPUNGE 6.4.3, SEARCH 6.4.4, STORE 6.4.6 and COPY 6.4.7). */
module Imap {
  import opened Wrappers
  import opened Flags
  import opened Requests
  import Urls
  import Strings

  /** `CIMAPClient::MailOperation`. */
  datatype Operation =
    | ImapNoop | ImapList | ImapSendString | ImapSendFile | ImapRetrFile | ImapRetrString
    | ImapDeleteFolder | ImapInfoFolder | ImapLsub | ImapCopy | ImapCreate | ImapSearch | ImapStore

  /** `CIMAPClient::MailProperty`. */
  datatype MailProperty = Deleted | Seen | Answered | Flagged | Draft | Recent

  /** `CIMAPClient::SearchOption`. */
  datatype SearchOption = ANSWERED | DELETED | DRAFT | FLAGGED | NEW | RECENT | SEEN

  /** The underlying value of a `MailProperty` (declaration order). The client
      stores this value; an `enum class` variable can hold any other `int`. */
  function PropertyCode(p: MailProperty): int
  {
    match p
    case Deleted => 0
    case Seen => 1
    case Answered => 2
    case Flagged => 3
    case Draft => 4
    case Recent => 5
  }

  /** The underlying value of a `SearchOption` (declaration order). */
  function SearchCode(o: SearchOption): int
  {
    match o
    case ANSWERED => 0
    case DELETED => 1
    case DRAFT => 2
    case FLAGGED => 3
    case NEW => 4
    case RECENT => 5
    case SEEN => 6
  }

  /** The flag name STORE sets for a stored property value; none for a value
      outside the enumeration, which makes STORE fail. */
  function PropertyKeyword(code: int): (k: Option<string>)
    ensures k.Some? <==> 0 <= code < 6
  {
    if code == 0 then Some("Deleted")
    else if code == 1 then Some("Seen")
    else if code == 2 then Some("Answered")
    else if code == 3 then Some("Flagged")
    else if code == 4 then Some("Draft")
    else if code == 5 then Some("Recent")
    else None
  }

  /** The search key SEARCH sends for a stored option value; none outside the
      enumeration, which makes SEARCH fail. */
  function SearchKeyword(code: int): (k: Option<string>)
    ensures k.Some? <==> 0 <= code < 7
  {
    if code == 0 then Some("ANSWERED")
    else if code == 1 then Some("DELETED")
    else if code == 2 then Some("DRAFT")
    else if code == 3 then Some("FLAGGED")
    else if code == 4 then Some("NEW")
    else if code == 5 then Some("RECENT")
    else if code == 6 then Some("SEEN")
    else None
  }

  /** The system flags of section 2.3.2 of RFC 3501. */
  const SystemFlags: set<string> := {"\\Seen", "\\Answered", "\\Flagged", "\\Deleted", "\\Draft", "\\Recent"}

  /** Reads a flag name back to the property it stands for. */
  function PropertyNamed(k: string): Option<MailProperty>
  {
    if k == "Deleted" then Some(Deleted)
    else if k == "Seen" then Some(Seen)
    else if k == "Answered" then Some(Answered)
    else if k == "Flagged" then Some(Flagged)
    else if k == "Draft" then Some(Draft)
    else if k == "Recent" then Some(Recent)
    else None
  }

  /** Reads a search key back to the option it stands for. */
  function OptionNamed(k: string): Option<SearchOption>
  {
    if k == "ANSWERED" then Some(ANSWERED)
    else if k == "DELETED" then Some(DELETED)
    else if k == "DRAFT" then Some(DRAFT)
    else if k == "FLAGGED" then Some(FLAGGED)
    else if k == "NEW" then Some(NEW)
    else if k == "RECENT" then Some(RECENT)
    else if k == "SEEN" then Some(SEEN)
    else None
  }

  /** Every property maps to a system flag of RFC 3501, and distinct
      properties to distinct flags: the flag names the property back. */
  lemma PropertyKeywordExact(p: MailProperty)
    ensures PropertyKeyword(PropertyCode(p)).Some?
    ensures "\\" + PropertyKeyword(PropertyCode(p)).value in SystemFlags
    ensures PropertyNamed(PropertyKeyword(PropertyCode(p)).value) == Some(p)
  {
    var flag := "\\" + PropertyKeyword(PropertyCode(p)).value;
    match p
    case Deleted => assert flag == "\\Deleted";
    case Seen => assert flag == "\\Seen";
    case Answered => assert flag == "\\Answered";
    case Flagged => assert flag == "\\Flagged";
    case Draft => assert flag == "\\Draft";
    case Recent => assert flag == "\\Recent";
  }

  /** Every search option maps to a distinct search key that names it back. */
  lemma SearchKeywordExact(o: SearchOption)
    ensures SearchKeyword(SearchCode(o)).Some?
    ensures OptionNamed(SearchKeyword(SearchCode(o)).value) == Some(o)
  {
  }

  /** The operation descriptor the client keeps between calls. */
  datatype State = State(
    op: Operation,
    property: int,
    search: int,
    mail: string,
    msgNumber: string,
    folder: string,
    hasText: bool,
    localFile: string)

  /** The descriptor of a freshly constructed client: NOOP, no text target,
      the `Flagged` property and the `FLAGGED` search key, and every string
      (message number included) empty. */
  function Initial(): (st: State)
    ensures st.op == ImapNoop && !st.hasText
    ensures st.property == PropertyCode(Flagged) && PropertyKeyword(st.property) == Some("Flagged")
    ensures st.search == SearchCode(FLAGGED) && SearchKeyword(st.search) == Some("FLAGGED")
    ensures st.mail == [] && st.msgNumber == [] && st.folder == [] && st.localFile == []
  {
    State(ImapNoop, PropertyCode(Flagged), SearchCode(FLAGGED), [], [], [], false, [])
  }

  const Scheme := Urls.Scheme("imap://", "imaps://", "IMAP://", "IMAPS://")

  lemma SchemeWellFormed()
    ensures Urls.WellFormed(Scheme)
  {
    assert Strings.Upper(Scheme.plain) == Scheme.plainUpper;
    assert Strings.Upper(Scheme.secure) == Scheme.secureUpper;
    assert Scheme.secure[4] != Scheme.plain[4];
  }

  /** `CIMAPClient::ParseURL`: prepends "imaps://" in SSL mode and "imap://"
      otherwise unless the host already has an IMAP scheme (which forces the
      SSL mode), then makes sure the URL ends in '/'. */
  function ParseUrl(url: string, tls: TlsMode): (r: Urls.Normalised)
    ensures Urls.EndsWithSlash(r.url)
    ensures Urls.HasScheme(url, Scheme) ==> r.tls == EnableSsl && |url| <= |r.url| && r.url[..|url|] == url
    ensures !Urls.HasScheme(url, Scheme) ==> r.tls == tls
    ensures !Urls.HasScheme(url, Scheme) && tls == EnableSsl ==> |r.url| >= 8 && r.url[..8] == "imaps://"
    ensures !Urls.HasScheme(url, Scheme) && tls != EnableSsl ==> |r.url| >= 7 && r.url[..7] == "imap://"
    ensures var given := if Urls.HasScheme(url, Scheme) then url else (if tls == EnableSsl then "imaps://" else "imap://") + url;
            r.url == given + (if Urls.EndsWithSlash(given) then [] else "/")
  {
    SchemeWellFormed();
    Urls.Normalise(url, tls, Scheme, true)
  }

  /** A normalised URL is a fixed point of `ParseUrl`, which then sets SSL mode. */
  lemma ParseUrlFixedPoint(url: string, tls: TlsMode, again: TlsMode)
    ensures ParseUrl(ParseUrl(url, tls).url, again) == Urls.Normalised(ParseUrl(url, tls).url, EnableSsl)
  {
    SchemeWellFormed();
    Urls.NormaliseFixedPoint(url, tls, again, Scheme, true);
  }

  /** The public operations of `CIMAPClient`, with C++ default arguments made
      explicit (`List` with folder "", `Search` with `NEW`). */
  datatype Call =
    | List(folder: string)
    | ListSubFolders
    | SendString(mail: string)
    | SendFile(path: string)
    | GetString(msg: string)
    | GetFile(msg: string, path: string)
    | DeleteFolder(folder: string)
    | Noop
    | CopyMail(msg: string, folder: string)
    | CreateFolder(folder: string)
    | SetMailProperty(msg: string, property: MailProperty)
    | Search(option: SearchOption)
    | InfoFolder(folder: string)

  function OperationOf(c: Call): Operation
  {
    match c
    case List(_) => ImapList
    case ListSubFolders => ImapLsub
    case SendString(_) => ImapSendString
    case SendFile(_) => ImapSendFile
    case GetString(_) => ImapRetrString
    case GetFile(_, _) => ImapRetrFile
    case DeleteFolder(_) => ImapDeleteFolder
    case Noop => ImapNoop
    case CopyMail(_, _) => ImapCopy
    case CreateFolder(_) => ImapCreate
    case SetMailProperty(_, _) => ImapStore
    case Search(_) => ImapSearch
    case InfoFolder(_) => ImapInfoFolder
  }

  /** The bodies of the public operations before they call `Perform`: each
      records its operation and arguments; every other field keeps what an
      earlier call left there. In particular `SendString` records no message
      number, so the one stored by an earlier call is used. */
  function Enter(st: State, c: Call): (r: State)
    ensures r.op == OperationOf(c)
    ensures r.msgNumber == (if c.GetString? || c.GetFile? || c.CopyMail? || c.SetMailProperty? then c.msg else st.msgNumber)
    ensures r.folder == (if c.List? || c.DeleteFolder? || c.CopyMail? || c.CreateFolder? || c.InfoFolder? then c.folder else st.folder)
    ensures r.hasText == (st.hasText || c.List? || c.ListSubFolders? || c.GetString? || c.Search? || c.InfoFolder?)
    ensures r.mail == (if c.SendString? then c.mail else st.mail)
    ensures r.localFile == (if c.SendFile? || c.GetFile? then c.path else st.localFile)
    ensures r.property == (if c.SetMailProperty? then PropertyCode(c.property) else st.property)
    ensures r.search == (if c.Search? then SearchCode(c.option) else st.search)
  {
    match c
    case List(folder) => st.(folder := folder, hasText := true, op := ImapList)
    case ListSubFolders => st.(hasText := true, op := ImapLsub)
    case SendString(mail) => st.(mail := mail, op := ImapSendString)
    case SendFile(path) => st.(localFile := path, op := ImapSendFile)
    case GetString(msg) => st.(msgNumber := msg, hasText := true, op := ImapRetrString)
    case GetFile(msg, path) => st.(msgNumber := msg, localFile := path, op := ImapRetrFile)
    case DeleteFolder(folder) => st.(folder := folder, op := ImapDeleteFolder)
    case Noop => st.(op := ImapNoop)
    case CopyMail(msg, folder) => st.(msgNumber := msg, folder := folder, op := ImapCopy)
    case CreateFolder(folder) => st.(folder := folder, op := ImapCreate)
    case SetMailProperty(msg, p) => st.(msgNumber := msg, property := PropertyCode(p), op := ImapStore)
    case Search(o) => st.(hasText := true, search := SearchCode(o), op := ImapSearch)
    case InfoFolder(folder) => st.(folder := folder, hasText := true, op := ImapInfoFolder)
  }

  // The operation table: what each operation needs and what it sends.

  predicate NeedsText(op: Operation)
  {
    op in {ImapList, ImapRetrString, ImapInfoFolder, ImapLsub, ImapSearch}
  }

  predicate NeedsMessage(op: Operation)
  {
    op in {ImapRetrString, ImapRetrFile, ImapCopy, ImapStore}
  }

  predicate NeedsFolder(op: Operation)
  {
    op in {ImapDeleteFolder, ImapCopy, ImapCreate}
  }

  /** A required argument is missing, a local file cannot be opened, or a
      stored property or search value is outside its enumeration. */
  predicate Refused(st: State, opens: bool)
  {
    || (NeedsText(st.op) && !st.hasText)
    || (NeedsMessage(st.op) && st.msgNumber == [])
    || (NeedsFolder(st.op) && st.folder == [])
    || (st.op == ImapSendFile && (st.localFile == [] || !opens))
    || (st.op == ImapRetrFile && !opens)
    || (st.op == ImapSearch && SearchKeyword(st.search).None?)
    || (st.op == ImapStore && PropertyKeyword(st.property).None?)
  }

  /** The URL suffix: the stored message number for an upload, the folder for
      LIST, "INBOX/;UID=<msg>" for a fetch, "INBOX" for COPY, SEARCH, STORE. */
  function Suffix(st: State): string
  {
    match st.op
    case ImapSendString => st.msgNumber
    case ImapList => st.folder
    case ImapRetrString => "INBOX/;UID=" + st.msgNumber
    case ImapRetrFile => "INBOX/;UID=" + st.msgNumber
    case ImapCopy => "INBOX"
    case ImapSearch => "INBOX"
    case ImapStore => "INBOX"
    case _ => []
  }

  function Command(st: State): Option<string>
  {
    match st.op
    case ImapNoop => Some("NOOP")
    case ImapDeleteFolder => Some("DELETE " + st.folder)
    case ImapInfoFolder => Some("EXAMINE " + st.folder)
    case ImapLsub => Some("LSUB \"\" *")
    case ImapCopy => Some("COPY " + st.msgNumber + " " + st.folder)
    case ImapCreate => Some("CREATE " + st.folder)
    case ImapSearch =>
      (match SearchKeyword(st.search)
       case Some(k) => Some("SEARCH " + k)
       case None => None)
    case ImapStore =>
      (match PropertyKeyword(st.property)
       case Some(k) => Some("STORE " + st.msgNumber + " +Flags \\" + k)
       case None => None)
    case _ => None
  }

  function SinkOf(st: State): Sink
  {
    match st.op
    case ImapRetrFile => FileSink(st.localFile)
    case ImapList => StringSink
    case ImapRetrString => StringSink
    case ImapInfoFolder => StringSink
    case ImapLsub => StringSink
    case ImapSearch => StringSink
    case _ => NoSink
  }

  function UploadOf(st: State): Source
  {
    match st.op
    case ImapSendString => StringSource(st.mail)
    case ImapSendFile => FileSource(st.localFile)
    case _ => NoSource
  }

  /** `CIMAPClient::PrePerform`, on the base URL `base`; `opens` says whether
      opening the local file succeeds. It fails exactly when the operation
      table refuses, and otherwise issues the table's request. */
  function PrePerform(base: string, st: State, opens: bool): (r: Option<Request>)
    ensures r.None? <==> Refused(st, opens)
    ensures r.Some? ==> r.value == Request(base + Suffix(st), Command(st), SinkOf(st), UploadOf(st),
                                           st.op == ImapNoop, None, None)
  {
    match st.op
    case ImapSendString =>
      Some(Request(base + st.msgNumber, None, NoSink, StringSource(st.mail), false, None, None))
    case ImapSendFile =>
      if st.localFile == [] then None
      else if !opens then None
      else Some(Request(base, None, NoSink, FileSource(st.localFile), false, None, None))
    case ImapNoop =>
      Some(Fetch(base, Some("NOOP"), NoSink, true))
    case ImapList =>
      if !st.hasText then None
      else Some(Fetch(if st.folder != [] then base + st.folder else base, None, StringSink, false))
    case ImapDeleteFolder =>
      if st.folder == [] then None
      else Some(Fetch(base, Some("DELETE " + st.folder), NoSink, false))
    case ImapRetrString =>
      if st.msgNumber == [] then None
      else if !st.hasText then None
      else Some(Fetch(base + ("INBOX/;UID=" + st.msgNumber), None, StringSink, false))
    case ImapRetrFile =>
      if st.msgNumber == [] then None
      else if !opens then None
      else Some(Fetch(base + ("INBOX/;UID=" + st.msgNumber), None, FileSink(st.localFile), false))
    case ImapInfoFolder =>
      if !st.hasText then None
      else Some(Fetch(base, Some("EXAMINE " + st.folder), StringSink, false))
    case ImapLsub =>
      if !st.hasText then None
      else Some(Fetch(base, Some("LSUB \"\" *"), StringSink, false))
    case ImapCopy =>
      if st.msgNumber == [] || st.folder == [] then None
      else Some(Fetch(base + "INBOX", Some("COPY " + st.msgNumber + " " + st.folder), NoSink, false))
    case ImapCreate =>
      if st.folder == [] then None
      else Some(Fetch(base, Some("CREATE " + st.folder), NoSink, false))
    case ImapSearch =>
      if !st.hasText then None
      else
        (match SearchKeyword(st.search)
         case None => None
         case Some(k) => Some(Fetch(base + "INBOX", Some("SEARCH " + k), StringSink, false)))
    case ImapStore =>
      if st.msgNumber == [] then None
      else
        (match PropertyKeyword(st.property)
         case None => None
         case Some(k) => Some(Fetch(base + "INBOX", Some("STORE " + st.msgNumber + " +Flags \\" + k), NoSink, false)))
  }

  /** Only the two file operations open a local file, and they are the ones
      `PostPerform` closes. */
  lemma OnlyFileOperationsOpenFile(base: string, st: State, opens: bool)
    requires PrePerform(base, st, opens).Some?
    ensures OpensFile(PrePerform(base, st, opens).value) <==> st.op in {ImapSendFile, ImapRetrFile}
  {
  }

  /** What `PostPerform` leaves: its result, whether the local file is open,
      and the follow-up request it issued on the same handle, if any. */
  datatype Finished = Finished(ok: bool, fileOpen: bool, followUp: Option<Request>)

  /** `CIMAPClient::PostPerform`: closes the local file after the two file
      operations; after a STORE whose transfer did not succeed, reissues the
      same request with the EXPUNGE command (its result is only logged); always
      succeeds. */
  function PostPerform(st: State, request: Request, fileOpen: bool, code: Outcome): (r: Finished)
    ensures r.ok
    ensures st.op in {ImapSendFile, ImapRetrFile} ==> !r.fileOpen
    ensures st.op !in {ImapSendFile, ImapRetrFile} ==> r.fileOpen == fileOpen
    ensures r.followUp.Some? <==> st.op == ImapStore && code == Err
    ensures r.followUp.Some? ==> r.followUp.value == request.(command := Some("EXPUNGE"))
  {
    var open := if st.op == ImapSendFile || st.op == ImapRetrFile then false else fileOpen;
    var expunge := if st.op == ImapStore && !code.Ok? then Some(request.(command := Some("EXPUNGE"))) else None;
    Finished(true, open, expunge)
  }
}

=== FILE: mailclient.dfy ===
/** The protocol-independent session of `CMailClient` (MAIL/MAILClient.h,
    MAIL/MAILClient.cpp): its attributes and defaults, `InitSession` and
    `CleanupSession`, the proxy and the other setters, and the transport
    options `Perform` derives from the session before every transfer. */
module MailClient {
  import opened Wrappers
  import opened Flags
  import Strings
  import Urls
  import Pop
  import Imap
  import Smtp

  /** Which class the session belongs to; it selects the `ParseURL` override. */
  datatype Kind = BaseClient | PopClient | ImapClient | SmtpClient

  /** The virtual `ParseURL`: the base class keeps the host and the TLS mode
      unchanged; each protocol client normalises them. */
  function ParseUrl(k: Kind, url: string, tls: TlsMode): (r: Urls.Normalised)
    ensures k == BaseClient ==> r == Urls.Normalised(url, tls)
    ensures k == PopClient ==> r == Pop.ParseUrl(url, tls)
    ensures k == ImapClient ==> r == Imap.ParseUrl(url, tls)
    ensures k == SmtpClient ==> r == Smtp.ParseUrl(url, tls)
    ensures k != BaseClient ==> |url| < |r.url| || r.tls == EnableSsl
  {
    match k
    case BaseClient => Urls.Normalised(url, tls)
    case PopClient => Pop.ParseUrl(url, tls)
    case ImapClient => Imap.ParseUrl(url, tls)
    case SmtpClient => Smtp.ParseUrl(url, tls)
  }

  /** The session attributes. `handle` says whether a libcurl easy handle is
      live; `recipients` is the SMTP recipient list; `caFile` is the CA bundle
      path, which the source keeps in a static member shared by all clients. */
  datatype Session = Session(
    url: string,
    user: string,
    password: string,
    proxy: string,
    noSignal: bool,
    caFile: string,
    sslCertFile: string,
    sslKeyFile: string,
    sslKeyPwd: string,
    handle: bool,
    recipients: seq<string>,
    timeout: int,
    settings: bv8,
    tls: TlsMode,
    progress: bool)

  /** The attributes of a freshly constructed client: every string empty, no
      handle, no recipient, no timeout, every settings flag set, no TLS, no
      progress callback. */
  function NewSession(): (s: Session)
    ensures s.url == [] && s.user == [] && s.password == [] && s.proxy == []
    ensures s.caFile == [] && s.sslCertFile == [] && s.sslKeyFile == [] && s.sslKeyPwd == []
    ensures !s.handle && s.recipients == [] && s.timeout == 0 && !s.noSignal && !s.progress
    ensures Has(s.settings, EnableLog) && Has(s.settings, VerifyPeer) && Has(s.settings, VerifyHost)
    ensures !s.tls.HasTlsBit() && s.tls != EnableSsl
  {
    Session([], [], [], [], false, [], [], [], [], false, [], 0, DefaultSettings(), DefaultTlsMode(), false)
  }

  /** A session attribute other than the ones `InitSession` writes. */
  predicate SameConfiguration(a: Session, b: Session)
  {
    && a.proxy == b.proxy && a.noSignal == b.noSignal && a.caFile == b.caFile
    && a.sslCertFile == b.sslCertFile && a.sslKeyFile == b.sslKeyFile && a.sslKeyPwd == b.sslKeyPwd
    && a.recipients == b.recipients && a.timeout == b.timeout && a.progress == b.progress
  }

  /** A boolean result together with the session it leaves. */
  datatype Answer = Answer(ok: bool, session: Session)

  /** `CMailClient::InitSession`; `allocOk` says whether `curl_easy_init`
      returns a handle. An empty host or a live handle refuses the call and
      changes nothing. Otherwise the settings, the credentials and the
      normalised URL and TLS mode are stored whether or not the allocation
      succeeds, and the result says whether a handle is now live. */
  function InitSession(k: Kind, s: Session, host: string, login: string, pwd: string,
                       settings: bv8, tls: TlsMode, allocOk: bool): (r: Answer)
    ensures host == [] || s.handle ==> r == Answer(false, s)
    ensures r.ok <==> host != [] && !s.handle && allocOk
    ensures r.ok ==> r.session.handle
    ensures r.session.handle <==> s.handle || r.ok
    ensures host != [] && !s.handle ==>
              && r.session.user == login && r.session.password == pwd && r.session.settings == settings
              && Urls.Normalised(r.session.url, r.session.tls) == ParseUrl(k, host, tls)
    ensures SameConfiguration(r.session, s)
  {
    if host == [] then Answer(false, s)
    else if s.handle then Answer(false, s)
    else
      var n := ParseUrl(k, host, tls);
      var t := s.(handle := allocOk, settings := settings, tls := n.tls, url := n.url, user := login, password := pwd);
      Answer(t.handle, t)
  }

  /** `InitSession` with the default arguments: every settings flag, no TLS. */
  function InitSessionDefaults(k: Kind, s: Session, host: string, login: string, pwd: string, allocOk: bool): (r: Answer)
    ensures r == InitSession(k, s, host, login, pwd, AllFlags, NoSslTls, allocOk)
    ensures r.ok ==> Has(r.session.settings, VerifyPeer) && Has(r.session.settings, VerifyHost)
  {
    InitSession(k, s, host, login, pwd, DefaultSettings(), DefaultTlsMode(), allocOk)
  }

  /** `CMailClient::CleanupSession`: fails, changing nothing, when no handle
      is live; otherwise releases the handle and empties the recipient list.
      No other attribute changes. */
  function CleanupSession(s: Session): (r: Answer)
    ensures r.ok <==> s.handle
    ensures !r.session.handle
    ensures r.session.recipients == (if s.handle then [] else s.recipients)
    ensures r.session.(handle := s.handle, recipients := s.recipients) == s
  {
    if !s.handle then Answer(false, s)
    else Answer(true, s.(handle := false, recipients := []))
  }

  /** A second `InitSession` on a live session fails and keeps the session. */
  lemma DoubleInitFails(k: Kind, s: Session, host: string, login: string, pwd: string,
                        settings: bv8, tls: TlsMode, allocOk: bool)
    requires InitSession(k, s, host, login, pwd, settings, tls, allocOk).ok
    ensures var t := InitSession(k, s, host, login, pwd, settings, tls, allocOk).session;
            InitSession(k, t, host, login, pwd, settings, tls, allocOk) == Answer(false, t)
  {
  }

  /** After a successful `InitSession`, the first cleanup succeeds and the
      second fails; a new `InitSession` then succeeds again. */
  lemma CleanupCycle(k: Kind, s: Session, host: string, login: string, pwd: string,
                     settings: bv8, tls: TlsMode)
    requires InitSession(k, s, host, login, pwd, settings, tls, true).ok
    ensures var t := InitSession(k, s, host, login, pwd, settings, tls, true).session;
            var once := CleanupSession(t);
            && once.ok && !CleanupSession(once.session).ok
            && InitSession(k, once.session, host, login, pwd, settings, tls, true).ok
  {
  }

  /** The proxy address `SetProxy` stores for a non-empty argument: kept when
      it starts with "HTTP" in any case (compared over four characters, so a
      shorter argument never matches), otherwise prefixed with "http://". */
  function ProxyUri(proxy: string): (u: string)
    requires proxy != []
    ensures Strings.StartsWithIgnoringCase(u, "HTTP")
    ensures |proxy| <= |u| && u[|u| - |proxy|..] == proxy
    ensures Strings.StartsWithIgnoringCase(proxy, "HTTP") <==> u == proxy
    ensures !Strings.StartsWithIgnoringCase(proxy, "HTTP") ==> u == "http://" + proxy
  {
    if Strings.StartsWithIgnoringCase(proxy, "HTTP") then proxy
    else
      assert Strings.Upper("http://")[..4] == "HTTP";
      Strings.StartsWithExtends("http://", proxy, "HTTP");
      "http://" + proxy
  }

  /** Storing a stored proxy address again keeps it. */
  lemma ProxyUriIdempotent(proxy: string)
    requires proxy != []
    ensures ProxyUri(ProxyUri(proxy)) == ProxyUri(proxy)
  {
  }

  /** `CMailClient::SetProxy`: an empty argument leaves the session as it is. */
  function SetProxy(s: Session, proxy: string): (r: Session)
    ensures proxy == [] ==> r == s
    ensures proxy != [] ==> r == s.(proxy := ProxyUri(proxy))
  {
    if proxy == [] then s else s.(proxy := ProxyUri(proxy))
  }

  /** A host name without a scheme is stored as an HTTP proxy URL. */
  lemma ProxyExample()
    ensures SetProxy(NewSession(), "my_proxy").proxy == "http://my_proxy"
  {
    assert Strings.Upper("my_proxy")[..4] == "MY_P";
  }

  /** The simple setters of `CMailClient`, one value each. */
  datatype Setting =
    | Timeout(seconds: int)
    | NoSignal(on: bool)
    | CertificateFile(path: string)
    | SslCertFile(path: string)
    | SslKeyFile(path: string)
    | SslKeyPassword(password: string)

  datatype SettingKey = TimeoutKey | NoSignalKey | CertificateFileKey | SslCertFileKey | SslKeyFileKey | SslKeyPasswordKey

  function KeyOf(v: Setting): SettingKey
  {
    match v
    case Timeout(_) => TimeoutKey
    case NoSignal(_) => NoSignalKey
    case CertificateFile(_) => CertificateFileKey
    case SslCertFile(_) => SslCertFileKey
    case SslKeyFile(_) => SslKeyFileKey
    case SslKeyPassword(_) => SslKeyPasswordKey
  }

  /** The getters `GetTimeout`, `GetNoSignal`, `GetCertificateFile`,
      `GetSSLCertFile`, `GetSSLKeyFile` and `GetSSLKeyPwd`. */
  function Get(s: Session, key: SettingKey): (v: Setting)
    ensures KeyOf(v) == key
    ensures key == TimeoutKey ==> v == Timeout(s.timeout)
    ensures key == NoSignalKey ==> v == NoSignal(s.noSignal)
    ensures key == CertificateFileKey ==> v == CertificateFile(s.caFile)
    ensures key == SslCertFileKey ==> v == SslCertFile(s.sslCertFile)
    ensures key == SslKeyFileKey ==> v == SslKeyFile(s.sslKeyFile)
    ensures key == SslKeyPasswordKey ==> v == SslKeyPassword(s.sslKeyPwd)
  {
    match key
    case TimeoutKey => Timeout(s.timeout)
    case NoSignalKey => NoSignal(s.noSignal)
    case CertificateFileKey => CertificateFile(s.caFile)
    case SslCertFileKey => SslCertFile(s.sslCertFile)
    case SslKeyFileKey => SslKeyFile(s.sslKeyFile)
    case SslKeyPasswordKey => SslKeyPassword(s.sslKeyPwd)
  }

  /** The setters `SetTimeout`, `SetNoSignal`, `SetCertificateFile`,
      `SetSSLCertFile`, `SetSSLKeyFile` and `SetSSLKeyPassword`: the getter of
      the same attribute returns the value set, the others are unaffected, and
      the handle, the address and the credentials are untouched. */
  function Set(s: Session, v: Setting): (r: Session)
    ensures Get(r, KeyOf(v)) == v
    ensures forall key :: key != KeyOf(v) ==> Get(r, key) == Get(s, key)
    ensures r.handle == s.handle && r.url == s.url && r.tls == s.tls && r.settings == s.settings
    ensures r.user == s.user && r.password == s.password && r.proxy == s.proxy
    ensures r.recipients == s.recipients && r.progress == s.progress
  {
    match v
    case Timeout(t) => s.(timeout := t)
    case NoSignal(b) => s.(noSignal := b)
    case CertificateFile(p) => s.(caFile := p)
    case SslCertFile(p) => s.(sslCertFile := p)
    case SslKeyFile(p) => s.(sslKeyFile := p)
    case SslKeyPassword(p) => s.(sslKeyPwd := p)
  }

  /** Setting the same attribute twice keeps only the last value. */
  lemma SetTwice(s: Session, a: Setting, b: Setting)
    requires KeyOf(a) == KeyOf(b)
    ensures Set(Set(s, a), b) == Set(s, b)
  {
  }

  /** `CMailClient::SetProgressFnCallback`: registers a progress callback;
      nothing else changes. The owner pointer and the function are not
      modelled. */
  function SetProgressFnCallback(s: Session): (r: Session)
    ensures r.progress && r.(progress := s.progress) == s
  {
    s.(progress := true)
  }

  /** The options `Perform` sets on the handle from the session, after
      `PrePerform` and before the transfer. `requireTls` is
      `CURLOPT_USE_SSL = CURLUSESSL_ALL`; `verifyPeer`/`verifyHost` false mean
      the option is set to 0; an absent optional value means the option is not
      set. */
  datatype TransportOptions = TransportOptions(
    username: string,
    password: string,
    requireTls: bool,
    caInfo: Option<string>,
    sslCert: Option<string>,
    sslKey: Option<string>,
    keyPassword: Option<string>,
    verifyPeer: bool,
    verifyHost: bool,
    progress: bool,
    userAgent: string,
    timeout: Option<int>,
    proxy: Option<string>,
    tunnel: bool,
    noSignal: bool)

  /** The value, when it is not empty. */
  function NonEmpty(v: string): (r: Option<string>)
    ensures r.Some? <==> v != []
    ensures r.Some? ==> r.value == v
  {
    if v == [] then None else Some(v)
  }

  const UserAgent := "mailclientcpp-agent/1.0"

  /** The options `Perform` derives from the session. */
  function DeriveOptions(s: Session): (o: TransportOptions)
    ensures o.username == s.user && o.password == s.password
    ensures o.requireTls <==> s.tls == EnableTls
    ensures o.verifyPeer <==> Has(s.settings, VerifyPeer)
    ensures o.verifyHost <==> Has(s.settings, VerifyHost)
    ensures o.caInfo == NonEmpty(s.caFile) && o.sslCert == NonEmpty(s.sslCertFile)
    ensures o.sslKey == NonEmpty(s.sslKeyFile) && o.keyPassword == NonEmpty(s.sslKeyPwd)
    ensures o.timeout.Some? <==> s.timeout > 0
    ensures o.timeout.Some? ==> o.timeout.value == s.timeout
    ensures o.proxy == NonEmpty(s.proxy) && (o.tunnel <==> o.proxy.Some?)
    ensures o.noSignal <==> s.timeout > 0 || s.noSignal
    ensures o.progress == s.progress && o.userAgent == UserAgent
  {
    TlsBitOnlyInTlsMode(s.tls);
    TransportOptions(
      s.user, s.password, s.tls.HasTlsBit(),
      NonEmpty(s.caFile), NonEmpty(s.sslCertFile), NonEmpty(s.sslKeyFile), NonEmpty(s.sslKeyPwd),
      s.settings & VerifyPeer != 0, s.settings & VerifyHost != 0,
      s.progress, UserAgent,
      if s.timeout > 0 then Some(s.timeout) else None,
      NonEmpty(s.proxy), s.proxy != [],
      s.timeout > 0 || s.noSignal)
  }

  /** Each setter reaches the transfer through the option it feeds: a positive
      timeout is passed on and also turns signals off, a non-positive one is
      not set; the certificate and key settings are passed on when not empty. */
  lemma SetterReachesTransfer(s: Session, v: Setting)
    ensures var o := DeriveOptions(Set(s, v));
            match v
            case Timeout(t) => o.timeout == (if t > 0 then Some(t) else None) && (o.noSignal <==> t > 0 || s.noSignal)
            case NoSignal(b) => o.noSignal <==> s.timeout > 0 || b
            case CertificateFile(p) => o.caInfo == NonEmpty(p)
            case SslCertFile(p) => o.sslCert == NonEmpty(p)
            case SslKeyFile(p) => o.sslKey == NonEmpty(p)
            case SslKeyPassword(p) => o.keyPassword == NonEmpty(p)
    ensures var o := DeriveOptions(Set(s, v));
            o.username == s.user && o.password == s.password && o.proxy == NonEmpty(s.proxy)
  {
  }

  /** A proxy set on the session is used, tunnelled, by every later transfer;
      an empty argument leaves the transfer options as they were. */
  lemma ProxyReachesTransfer(s: Session, proxy: string)
    ensures proxy != [] ==> DeriveOptions(SetProxy(s, proxy)).proxy == Some(ProxyUri(proxy))
                            && DeriveOptions(SetProxy(s, proxy)).tunnel
    ensures proxy == [] ==> DeriveOptions(SetProxy(s, proxy)) == DeriveOptions(s)
  {
  }

  /** The scheme a protocol client recognises and prepends. */
  function ProtocolScheme(k: Kind): Urls.Scheme
    requires k != BaseClient
  {
    match k
    case PopClient => Pop.Scheme
    case ImapClient => Imap.Scheme
    case SmtpClient => Smtp.Scheme
  }

  /** After `InitSession`, a transfer requires STARTTLS exactly when the
      explicit upgrade mode was asked for and, for a protocol client, the host
      did not already carry one of the protocol's schemes (a scheme forces the
      implicit SSL mode). */
  lemma StartTlsUnlessScheme(k: Kind, s: Session, host: string, login: string, pwd: string,
                             settings: bv8, tls: TlsMode, allocOk: bool)
    requires host != [] && !s.handle
    ensures var r := InitSession(k, s, host, login, pwd, settings, tls, allocOk);
            k == BaseClient ==> (DeriveOptions(r.session).requireTls <==> tls == EnableTls)
    ensures var r := InitSession(k, s, host, login, pwd, settings, tls, allocOk);
            k != BaseClient ==> (DeriveOptions(r.session).requireTls <==> tls == EnableTls && !Urls.HasScheme(host, ProtocolScheme(k)))
  {
  }

  /** With the default settings both certificate checks stay on and nothing
      asks for STARTTLS. */
  lemma DefaultsVerify(k: Kind, host: string, login: string, pwd: string)
    requires host != []
    ensures var r := InitSessionDefaults(k, NewSession(), host, login, pwd, true);
            var o := DeriveOptions(r.session);
            r.ok && o.verifyPeer && o.verifyHost && o.timeout.None? && o.proxy.None? && !o.noSignal
  {
  }

  /** A POP3 host given with the plain "pop3://" scheme and the explicit
      upgrade mode ends up in SSL mode, so the transfer no longer requires
      STARTTLS (the STLS upgrade of RFC 2595); the same host without a scheme
      keeps it. */
  lemma PlainSchemeDropsStartTls(login: string, pwd: string, settings: bv8)
    ensures var r := InitSession(PopClient, NewSession(), "pop3://h", login, pwd, settings, EnableTls, true);
            r.ok && r.session.tls == EnableSsl && !DeriveOptions(r.session).requireTls
    ensures var r := InitSession(PopClient, NewSession(), "h", login, pwd, settings, EnableTls, true);
            r.ok && r.session.tls == EnableTls && DeriveOptions(r.session).requireTls
  {
    assert Strings.Upper("pop3://h")[..7] == "POP3://";
    assert !Strings.StartsWithIgnoringCase("h", "POP3://");
    assert !Strings.StartsWithIgnoringCase("h", "POP3S://");
    Pop.SchemeWellFormed();
  }

  /** The base class keeps the host verbatim and stores the flags combined
      with `operator|`. */
  lemma BaseSessionExample()
    ensures var r := InitSession(BaseClient, NewSession(), "localhost", "foobar", "magic",
                                 Or(EnableLog, VerifyPeer), EnableTls, true);
            && r.ok && r.session.url == "localhost" && r.session.user == "foobar" && r.session.password == "magic"
            && r.session.settings == 0x03 && r.session.tls == EnableTls
  {
  }
}

=== FILE: pop.dfy ===
/** The POP3 client (MAIL/POPClient.h, MAIL/POPClient.cpp): address
    normalisation, the entry points that record an operation, and the planning
    of the request each operation issues (commands of RFC 1939: STAT, LIST,
    RETR, DELE and NOOP of section 5, TOP and UIDL of section 7). */
module Pop {
  import opened Wrappers
  import opened Flags
  import opened Requests
  import Urls
  import Strings

  /** `CPOPClient::MailOperation`. */
  datatype Operation = Pop3List | Pop3RetrString | Pop3RetrFile | Pop3Dele | Pop3Uidl | Pop3Top | Pop3Stat | Pop3Noop

  /** The operation descriptor the client keeps between calls: the operation,
      the message number, whether a caller's text target is registered
      (`m_pstrText != nullptr`) and the local file path. */
  datatype State = State(op: Operation, msgNumber: string, hasText: bool, localFile: string)

  /** The descriptor of a freshly constructed client: NOOP, no text target,
      no message number and no local file. */
  function Initial(): (st: State)
    ensures st.op == Pop3Noop && !st.hasText
    ensures st.msgNumber == [] && st.localFile == []
  {
    State(Pop3Noop, [], false, [])
  }

  const Scheme := Urls.Scheme("pop3://", "pop3s://", "POP3://", "POP3S://")

  lemma SchemeWellFormed()
    ensures Urls.WellFormed(Scheme)
  {
    assert Strings.Upper(Scheme.plain) == Scheme.plainUpper;
    assert Strings.Upper(Scheme.secure) == Scheme.secureUpper;
    assert Scheme.secure[4] != Scheme.plain[4];
  }

  /** `CPOPClient::ParseURL`: prepends "pop3s://" in SSL mode and "pop3://"
      otherwise unless the host already has a POP3 scheme (which forces the SSL
      mode), then makes sure the URL ends in '/'. */
  function ParseUrl(url: string, tls: TlsMode): (r: Urls.Normalised)
    ensures Urls.EndsWithSlash(r.url)
    ensures Urls.HasScheme(url, Scheme) ==> r.tls == EnableSsl && |url| <= |r.url| && r.url[..|url|] == url
    ensures !Urls.HasScheme(url, Scheme) ==> r.tls == tls
    ensures !Urls.HasScheme(url, Scheme) && tls == EnableSsl ==> |r.url| >= 8 && r.url[..8] == "pop3s://"
    ensures !Urls.HasScheme(url, Scheme) && tls != EnableSsl ==> |r.url| >= 7 && r.url[..7] == "pop3://"
    ensures var given := if Urls.HasScheme(url, Scheme) then url else (if tls == EnableSsl then "pop3s://" else "pop3://") + url;
            r.url == given + (if Urls.EndsWithSlash(given) then [] else "/")
  {
    SchemeWellFormed();
    Urls.Normalise(url, tls, Scheme, true)
  }

  /** A normalised URL is a fixed point of `ParseUrl`; parsing it again sets
      the SSL mode, since it now carries a scheme. */
  lemma ParseUrlFixedPoint(url: string, tls: TlsMode, again: TlsMode)
    ensures ParseUrl(ParseUrl(url, tls).url, again) == Urls.Normalised(ParseUrl(url, tls).url, EnableSsl)
  {
    SchemeWellFormed();
    Urls.NormaliseFixedPoint(url, tls, again, Scheme, true);
  }

  /** The public operations of `CPOPClient`; text targets are C++ references. */
  datatype Call =
    | List
    | ListUidl
    | GetString(msg: string)
    | GetFile(msg: string, path: string)
    | GetHeaders(msg: string)
    | Delete(msg: string)
    | Noop
    | Stat

  /** The operation a call records. */
  function OperationOf(c: Call): Operation
  {
    match c
    case List => Pop3List
    case ListUidl => Pop3Uidl
    case GetString(_) => Pop3RetrString
    case GetFile(_, _) => Pop3RetrFile
    case GetHeaders(_) => Pop3Top
    case Delete(_) => Pop3Dele
    case Noop => Pop3Noop
    case Stat => Pop3Stat
  }

  /** The bodies of `List` ... `Stat` before they call `Perform`: each records
      its operation and its arguments and leaves every other field as it was
      (a text target, a message number, a path stay from earlier calls). */
  function Enter(st: State, c: Call): (r: State)
    ensures r.op == OperationOf(c)
    ensures r.msgNumber == (if c.GetString? || c.GetFile? || c.GetHeaders? || c.Delete? then c.msg else st.msgNumber)
    ensures r.hasText == (st.hasText || c.List? || c.ListUidl? || c.GetString? || c.GetHeaders? || c.Stat?)
    ensures r.localFile == (if c.GetFile? then c.path else st.localFile)
  {
    match c
    case List => st.(hasText := true, op := Pop3List)
    case ListUidl => st.(hasText := true, op := Pop3Uidl)
    case GetString(msg) => st.(hasText := true, msgNumber := msg, op := Pop3RetrString)
    case GetFile(msg, path) => st.(localFile := path, msgNumber := msg, op := Pop3RetrFile)
    case GetHeaders(msg) => st.(hasText := true, msgNumber := msg, op := Pop3Top)
    case Delete(msg) => st.(msgNumber := msg, op := Pop3Dele)
    case Noop => st.(op := Pop3Noop)
    case Stat => st.(hasText := true, op := Pop3Stat)
  }

  // The operation table: what each operation needs and what it sends.

  predicate NeedsText(op: Operation)
  {
    op in {Pop3List, Pop3Uidl, Pop3RetrString, Pop3Top, Pop3Stat}
  }

  predicate NeedsMessage(op: Operation)
  {
    op in {Pop3RetrString, Pop3RetrFile, Pop3Top, Pop3Dele}
  }

  /** The URL suffix: the message number for RETR, nothing otherwise. */
  function Suffix(st: State): string
  {
    if st.op in {Pop3RetrString, Pop3RetrFile} then st.msgNumber else []
  }

  /** The custom command; LIST and RETR use libcurl's default for the URL. */
  function Command(st: State): Option<string>
  {
    match st.op
    case Pop3Top => Some("TOP " + st.msgNumber + " 0")
    case Pop3Dele => Some("DELE " + st.msgNumber)
    case Pop3Uidl => Some("UIDL")
    case Pop3Stat => Some("STAT")
    case Pop3Noop => Some("NOOP")
    case _ => None
  }

  function SinkOf(st: State): Sink
  {
    match st.op
    case Pop3RetrFile => FileSink(st.localFile)
    case Pop3Dele => NoSink
    case Pop3Noop => NoSink
    case _ => StringSink
  }

  predicate NoBody(op: Operation)
  {
    op in {Pop3Dele, Pop3Noop, Pop3Stat}
  }

  /** A required argument of the recorded operation is missing, or the local
      file of RETR to a file cannot be opened. */
  predicate Refused(st: State, opens: bool)
  {
    || (NeedsText(st.op) && !st.hasText)
    || (NeedsMessage(st.op) && st.msgNumber == [])
    || (st.op == Pop3RetrFile && !opens)
  }

  /** `CPOPClient::PrePerform`, on the base URL `base`; `opens` says whether
      opening the local file for writing succeeds. It fails exactly when the
      operation table says an argument is missing, and otherwise issues the
      table's request: a download on the base URL (plus the message number for
      RETR) with the table's command, sink and no-body flag. */
  function PrePerform(base: string, st: State, opens: bool): (r: Option<Request>)
    ensures r.None? <==> Refused(st, opens)
    ensures r.Some? ==> r.value == Fetch(base + Suffix(st), Command(st), SinkOf(st), NoBody(st.op))
  {
    match st.op
    case Pop3Top =>
      if !st.hasText then None
      else if st.msgNumber == [] then None
      else Some(Fetch(base, Some("TOP " + st.msgNumber + " 0"), StringSink, false))
    case Pop3Noop =>
      Some(Fetch(base, Some("NOOP"), NoSink, true))
    case Pop3Uidl =>
      if !st.hasText then None
      else Some(Fetch(base, Some("UIDL"), StringSink, false))
    case Pop3List =>
      if !st.hasText then None
      else Some(Fetch(base, None, StringSink, false))
    case Pop3Dele =>
      if st.msgNumber == [] then None
      else Some(Fetch(base, Some("DELE " + st.msgNumber), NoSink, true))
    case Pop3RetrString =>
      if st.msgNumber == [] then None
      else if !st.hasText then None
      else Some(Fetch(base + st.msgNumber, None, StringSink, false))
    case Pop3RetrFile =>
      if st.msgNumber == [] then None
      else if !opens then None
      else Some(Fetch(base + st.msgNumber, None, FileSink(st.localFile), false))
    case Pop3Stat =>
      if !st.hasText then None
      else Some(Fetch(base, Some("STAT"), StringSink, true))
  }

  /** UIDL is LIST with the UIDL command: same requirement, URL and sink. */
  lemma UidlIsListWithCommand(base: string, st: State, opens: bool)
    ensures var u := PrePerform(base, st.(op := Pop3Uidl), opens);
            var l := PrePerform(base, st.(op := Pop3List), opens);
            u.Some? == l.Some? && (u.Some? ==> u.value == l.value.(command := Some("UIDL")))
  {
  }

  /** What `PostPerform` leaves: its result and whether the local file is open. */
  datatype Finished = Finished(ok: bool, fileOpen: bool)

  /** `CPOPClient::PostPerform`: closes the local file after RETR to a file,
      touches nothing otherwise, and always succeeds. */
  function PostPerform(st: State, fileOpen: bool): (r: Finished)
    ensures r.ok
    ensures st.op == Pop3RetrFile ==> !r.fileOpen
    ensures st.op != Pop3RetrFile ==> r.fileOpen == fileOpen
  {
    if st.op == Pop3RetrFile then Finished(true, false) else Finished(true, fileOpen)
  }

  /** Only RETR to a file opens a local file, and it is the one `PostPerform` closes. */
  lemma OnlyRetrFileOpensFile(base: string, st: State, opens: bool)
    requires PrePerform(base, st, opens).Some?
    ensures OpensFile(PrePerform(base, st, opens).value) <==> st.op == Pop3RetrFile
  {
  }

  /** A bare host in SSL mode gets the "pop3s://" scheme and a final '/'. */
  lemma ExampleHostSsl()
    ensures ParseUrl("mail.example.com", EnableSsl) == Urls.Normalised("pop3s://" + "mail.example.com" + "/", EnableSsl)
  {
    var host := "mail.example.com";
    assert Strings.Upper(host)[0] == 'M';
    assert !Urls.HasScheme(host, Scheme);
    var s := "pop3s://" + host;
    assert s[|s| - 1] == 'm';
    SchemeWellFormed();
    var n := Urls.Normalise(host, EnableSsl, Scheme, true);
    assert n.url == s + "/";
  }

  /** The same host without encryption gets the "pop3://" scheme. */
  lemma ExampleHostPlain()
    ensures ParseUrl("mail.example.com", NoSslTls) == Urls.Normalised("pop3://" + "mail.example.com" + "/", NoSslTls)
  {
    var host := "mail.example.com";
    assert Strings.Upper(host)[0] == 'M';
    assert !Urls.HasScheme(host, Scheme);
    var s := "pop3://" + host;
    assert s[|s| - 1] == 'm';
    SchemeWellFormed();
    var n := Urls.Normalise(host, NoSslTls, Scheme, true);
    assert n.url == s + "/";
  }
}

=== FILE: requests.dfy ===
/** What a client asks the transport to do: the options `PrePerform` sets on
    the libcurl handle after `curl_easy_reset`, gathered into one record. */
module Requests {
  import opened Wrappers

  /** The transfer's result code: `CURLE_OK` or any other `CURLcode`. */
  datatype Outcome = Ok | Err

  /** Where downloaded bytes go: nowhere, the caller's string
      (`WriteInStringCallback`), or a local file opened for writing with
      truncation (`WriteToFileCallback`). */
  datatype Sink = NoSink | StringSink | FileSink(path: string)

  /** Where uploaded bytes come from: nothing, a string read line by line, or a
      local file opened for reading and read line by line. */
  datatype Source = NoSource | StringSource(text: string) | FileSource(path: string)

  /** One request: `CURLOPT_URL`, `CURLOPT_CUSTOMREQUEST`, the write callback,
      the read callback with `CURLOPT_UPLOAD`, `CURLOPT_NOBODY`,
      `CURLOPT_MAIL_FROM` and the list given as `CURLOPT_MAIL_RCPT`. */
  datatype Request = Request(
    url: string,
    command: Option<string>,
    sink: Sink,
    upload: Source,
    noBody: bool,
    mailFrom: Option<string>,
    recipients: Option<seq<string>>)

  /** A download or command request, with no upload and no SMTP envelope. */
  function Fetch(url: string, command: Option<string>, sink: Sink, noBody: bool): Request
  {
    Request(url, command, sink, NoSource, noBody, None, None)
  }

  /** The handle state right after `curl_easy_reset`, which is all the base
      client's neutral `PrePerform` leaves: no URL, no command, no callbacks. */
  function Blank(): Request
  {
    Request([], None, NoSink, NoSource, false, None, None)
  }

  /** The request has a local file open, for writing or for reading. */
  predicate OpensFile(r: Request)
  {
    r.sink.FileSink? || r.upload.FileSource?
  }
}

=== FILE: smtp.dfy ===
/** The SMTP client (MAIL/SMTPClient.h, MAIL/SMTPClient.cpp): address
    normalisation, the entry points, the VRFY address wrapping, and the
    planning of the envelope (RFC 5321 MAIL FROM, RCPT TO, VRFY and EXPN of
    sections 3.3 and 3.5) and payload of each of the four operations. */
module Smtp {
  import opened Wrappers
  import opened Flags
  import opened Requests
  import Urls
  import Strings

  /** `CSMTPClient::SMTPOperation`. */
  datatype Operation = SmtpSendString | SmtpSendFile | SmtpVrfy | SmtpExpn

  /** The operation descriptor the client keeps between calls. */
  datatype State = State(op: Operation, from: string, to: string, cc: string, mail: string, localFile: string)

  /** The descriptor of a freshly constructed client: SEND_STRING, with every
      address, the body and the local file empty. */
  function Initial(): (st: State)
    ensures st.op == SmtpSendString
    ensures st.from == [] && st.to == [] && st.cc == [] && st.mail == [] && st.localFile == []
  {
    State(SmtpSendString, [], [], [], [], [])
  }

  const Scheme := Urls.Scheme("smtp://", "smtps://", "SMTP://", "SMTPS://")

  lemma SchemeWellFormed()
    ensures Urls.WellFormed(Scheme)
  {
    assert Strings.Upper(Scheme.plain) == Scheme.plainUpper;
    assert Strings.Upper(Scheme.secure) == Scheme.secureUpper;
    assert Scheme.secure[4] != Scheme.plain[4];
  }

  /** `CSMTPClient::ParseURL`: prepends "smtps://" in SSL mode and "smtp://"
      otherwise unless the host already has an SMTP scheme (which forces the
      SSL mode). Unlike the mailbox protocols no '/' is added: the host is kept
      exactly as given behind the scheme. */
  function ParseUrl(url: string, tls: TlsMode): (r: Urls.Normalised)
    ensures Urls.HasScheme(url, Scheme) ==> r == Urls.Normalised(url, EnableSsl)
    ensures !Urls.HasScheme(url, Scheme) && tls == EnableSsl ==> r == Urls.Normalised("smtps://" + url, tls)
    ensures !Urls.HasScheme(url, Scheme) && tls != EnableSsl ==> r == Urls.Normalised("smtp://" + url, tls)
  {
    SchemeWellFormed();
    Urls.Normalise(url, tls, Scheme, false)
  }

  /** A normalised URL is a fixed point of `ParseUrl`, which then sets SSL mode. */
  lemma ParseUrlFixedPoint(url: string, tls: TlsMode, again: TlsMode)
    ensures ParseUrl(ParseUrl(url, tls).url, again) == Urls.Normalised(ParseUrl(url, tls).url, EnableSsl)
  {
    SchemeWellFormed();
    Urls.NormaliseFixedPoint(url, tls, again, Scheme, false);
  }

  /** The VRFY argument: a '<' is put in front unless the address starts with
      one, then a '>' is appended unless it ends with one. */
  function Wrap(addr: string): (w: string)
    requires addr != []
    ensures w != [] && w[0] == '<' && w[|w| - 1] == '>'
    ensures |addr| <= |w| <= |addr| + 2
    ensures addr[0] == '<' && addr[|addr| - 1] == '>' ==> w == addr
    ensures w == (if addr[0] == '<' then [] else "<") + addr + (if addr[|addr| - 1] == '>' then [] else ">")
  {
    var front := if addr[0] != '<' then "<" + addr else addr;
    if front[|front| - 1] != '>' then front + ">" else front
  }

  /** Wrapping is idempotent. */
  lemma WrapIdempotent(addr: string)
    requires addr != []
    ensures Wrap(Wrap(addr)) == Wrap(addr)
  {
  }

  /** The address itself survives wrapping: it sits right after the leading
      '<' that was added, or at the start if it already had one. */
  lemma WrapKeepsAddress(addr: string)
    requires addr != []
    ensures var w := Wrap(addr);
            var at := if addr[0] == '<' then 0 else 1;
            at + |addr| <= |w| && w[at..at + |addr|] == addr
  {
  }

  /** A bare address gains exactly one bracket on each side. */
  lemma WrapBare(addr: string)
    requires addr != [] && addr[0] != '<' && addr[|addr| - 1] != '>'
    ensures Wrap(addr) == "<" + addr + ">"
  {
  }

  /** The public operations of `CSMTPClient`. */
  datatype Call =
    | SendString(from: string, to: string, cc: string, mail: string)
    | SendFile(from: string, to: string, cc: string, path: string)
    | VerifyAddress(address: string)
    | ExpandMailList(listName: string)

  /** The bodies of the public operations before they call `Perform`. */
  function Enter(st: State, c: Call): (r: State)
    ensures r.op == (match c
                     case SendString(_, _, _, _) => SmtpSendString
                     case SendFile(_, _, _, _) => SmtpSendFile
                     case VerifyAddress(_) => SmtpVrfy
                     case ExpandMailList(_) => SmtpExpn)
    ensures c.SendString? || c.SendFile? ==> r.from == c.from && r.to == c.to && r.cc == c.cc
    ensures c.VerifyAddress? ==> r.to == c.address && r.from == st.from && r.cc == st.cc
    ensures c.ExpandMailList? ==> r.from == st.from && r.to == st.to && r.cc == st.cc
    ensures r.mail == (if c.SendString? then c.mail else if c.ExpandMailList? then c.listName else st.mail)
    ensures r.localFile == (if c.SendFile? then c.path else st.localFile)
  {
    match c
    case SendString(from, to, cc, mail) => st.(from := from, to := to, cc := cc, mail := mail, op := SmtpSendString)
    case SendFile(from, to, cc, path) => st.(from := from, to := to, cc := cc, localFile := path, op := SmtpSendFile)
    case VerifyAddress(address) => st.(to := address, op := SmtpVrfy)
    case ExpandMailList(listName) => st.(mail := listName, op := SmtpExpn)
  }

  /** A required argument is missing or the local file cannot be opened.
      EXPN has no requirement: even an empty list name is sent. */
  predicate Refused(st: State, opens: bool)
  {
    match st.op
    case SmtpSendString => st.from == [] || st.to == []
    case SmtpSendFile => st.localFile == [] || st.from == [] || st.to == [] || !opens
    case SmtpVrfy => st.to == []
    case SmtpExpn => false
  }

  /** The recipients an accepted operation appends: the To address and, when
      given, the Cc address for a send; the wrapped address for VRFY; the list
      name for EXPN. */
  function Added(st: State): seq<string>
    requires !Refused(st, true)
  {
    match st.op
    case SmtpSendString => [st.to] + (if st.cc != [] then [st.cc] else [])
    case SmtpSendFile => [st.to] + (if st.cc != [] then [st.cc] else [])
    case SmtpVrfy => [Wrap(st.to)]
    case SmtpExpn => [st.mail]
  }

  /** An accepted operation: the request, the descriptor as `PrePerform` left
      it (VRFY stores the wrapped address), and the session's recipient list
      after the appends. */
  datatype Planned = Planned(request: Request, state: State, recipients: seq<string>)

  /** `CSMTPClient::PrePerform`, on the base URL `base` with the session's
      recipient list `rcpts`; `opens` says whether opening the local file
      succeeds. It fails exactly when a requirement is missing; otherwise the
      request goes to the base URL, the list only grows (by `Added`), and the
      whole list, earlier entries included, is the envelope. */
  function PrePerform(base: string, st: State, rcpts: seq<string>, opens: bool): (r: Option<Planned>)
    ensures r.None? <==> Refused(st, opens)
    ensures r.Some? ==> r.value.recipients == rcpts + Added(st)
    ensures r.Some? ==> r.value.request.url == base && r.value.request.recipients == Some(r.value.recipients)
    ensures r.Some? ==> |rcpts| < |r.value.recipients| && r.value.recipients[..|rcpts|] == rcpts
    ensures r.Some? ==> r.value.request.mailFrom == (if st.op in {SmtpSendString, SmtpSendFile} then Some(st.from) else None)
    ensures r.Some? ==> r.value.request.command == (if st.op == SmtpExpn then Some("EXPN") else None)
    ensures r.Some? ==> r.value.request.upload == (match st.op
                                                  case SmtpSendString => StringSource(st.mail)
                                                  case SmtpSendFile => FileSource(st.localFile)
                                                  case _ => NoSource)
    ensures r.Some? ==> r.value.request.sink == NoSink && !r.value.request.noBody
    ensures r.Some? ==> r.value.state == (if st.op == SmtpVrfy then st.(to := Wrap(st.to)) else st)
  {
    match st.op
    case SmtpSendString =>
      if st.from != [] && st.to != [] then
        var list := rcpts + [st.to] + (if st.cc != [] then [st.cc] else []);
        Some(Planned(Request(base, None, NoSink, StringSource(st.mail), false, Some(st.from), Some(list)), st, list))
      else None
    case SmtpSendFile =>
      if st.localFile != [] && st.from != [] && st.to != [] then
        if opens then
          var list := rcpts + [st.to] + (if st.cc != [] then [st.cc] else []);
          Some(Planned(Request(base, None, NoSink, FileSource(st.localFile), false, Some(st.from), Some(list)), st, list))
        else None
      else None
    case SmtpVrfy =>
      if st.to != [] then
        var to := Wrap(st.to);
        var list := rcpts + [to];
        Some(Planned(Request(base, None, NoSink, NoSource, false, None, Some(list)), st.(to := to), list))
      else None
    case SmtpExpn =>
      var list := rcpts + [st.mail];
      Some(Planned(Request(base, Some("EXPN"), NoSink, NoSource, false, None, Some(list)), st, list))
  }

  /** What `PostPerform` leaves: its result and whether the local file is open. */
  datatype Finished = Finished(ok: bool, fileOpen: bool)

  /** `CSMTPClient::PostPerform`: closes the local file after SEND_FILE and
      always succeeds, whatever the transfer's result. */
  function PostPerform(st: State, fileOpen: bool): (r: Finished)
    ensures r.ok
    ensures r.fileOpen <==> fileOpen && st.op != SmtpSendFile
  {
    Finished(true, if st.op == SmtpSendFile then false else fileOpen)
  }
}

=== FILE: streaming.dfy ===
/** The libcurl data callbacks of MAIL/MAILClient.cpp, over `seq<char>`.

    A read callback is asked for at most `size * nmemb` bytes and answers with a
    chunk (its length is the callback's return value); a stream is modelled by the
    text it has not handed out yet. A write callback is offered `size * nmemb`
    bytes and appends them to its target. */
module Streaming {
  import opened Wrappers

  /** `size_t` is 64 bits wide: `size * nmemb` wraps modulo 2^64. */
  const SizeModulus: nat := 0x1_0000_0000_0000_0000

  /** The byte count `size * nmemb` as the callbacks compute it. */
  function Capacity(size: nat, nmemb: nat): nat
  {
    (size * nmemb) % SizeModulus
  }

  /** The guard at the head of the callbacks: a zero-sized buffer. */
  predicate NoRoom(size: nat, nmemb: nat)
  {
    size == 0 || nmemb == 0 || Capacity(size, nmemb) < 1
  }

  /** Index of the first '\n' of `s`, or |s| when there is none. */
  function LineEnd(s: string): (i: nat)
    ensures i <= |s|
    ensures i < |s| ==> s[i] == '\n'
    ensures forall j :: 0 <= j < i ==> s[j] != '\n'
  {
    if s == [] then 0
    else if s[0] == '\n' then 0
    else 1 + LineEnd(s[1..])
  }

  datatype Extracted = Extracted(line: string, rest: string)

  /** `std::getline(stream, line, '\n')` on a stream whose unread text is `s`:
      fails on an exhausted stream; otherwise extracts the text up to the first
      '\n', consumes that '\n', and leaves the rest. */
  function GetLine(s: string): (r: Option<Extracted>)
    ensures r.None? <==> s == []
    ensures r.Some? ==> '\n' !in r.value.line
    ensures r.Some? ==> s == r.value.line + "\n" + r.value.rest
                        || (s == r.value.line && r.value.rest == [])
    ensures r.Some? ==> |r.value.rest| < |s|
  {
    if s == [] then None
    else
      var i := LineEnd(s);
      if i < |s| then
        assert s == s[..i] + "\n" + s[i+1..];
        Some(Extracted(s[..i], s[i+1..]))
      else
        Some(Extracted(s, []))
  }

  /** What one read callback call hands to libcurl, and the stream afterwards. */
  datatype Read<S> = Read(chunk: string, stream: S)

  /** The next line of `unread`, terminated by CRLF, or nothing at end of data. */
  function NextChunk(unread: string): Read<string>
  {
    match GetLine(unread)
    case None => Read([], unread)
    case Some(e) => Read(e.line + "\r\n", e.rest)
  }

  /** `ReadLineFromStringStreamCallback`: a null stream or a zero-sized buffer
      yields 0 bytes; otherwise the next '\n'-delimited line without its '\n',
      followed by CRLF; 0 bytes once the stream is exhausted. */
  function ReadLineFromString(stream: Option<string>, size: nat, nmemb: nat): (r: Read<Option<string>>)
    ensures NoRoom(size, nmemb) || stream.None? ==> r == Read([], stream)
    ensures !NoRoom(size, nmemb) && stream == Some([]) ==> r == Read([], stream)
    ensures !NoRoom(size, nmemb) && stream.Some? && stream.value != [] ==>
      && r.stream.Some?
      && |r.chunk| >= 2 && r.chunk[|r.chunk| - 2..] == "\r\n"
      && '\n' !in r.chunk[..|r.chunk| - 2]
      && (stream.value == r.chunk[..|r.chunk| - 2] + "\n" + r.stream.value
          || (stream.value == r.chunk[..|r.chunk| - 2] && r.stream.value == []))
  {
    if NoRoom(size, nmemb) || stream.None? then Read([], stream)
    else
      var n := NextChunk(stream.value);
      Read(n.chunk, Some(n.stream))
  }

  /** A local file stream: closed, or open with the text not yet read. */
  datatype FileStream = Closed | Open(unread: string)

  /** `ReadLineFromFileStreamCallback`: as the string variant, and additionally
      0 bytes when the file is not open. */
  function ReadLineFromFile(file: Option<FileStream>, size: nat, nmemb: nat): (r: Read<Option<FileStream>>)
    ensures NoRoom(size, nmemb) || file.None? || file == Some(Closed) ==> r == Read([], file)
    ensures !NoRoom(size, nmemb) && file.Some? && file.value.Open? ==>
      var s := ReadLineFromString(Some(file.value.unread), size, nmemb);
      r == Read(s.chunk, Some(Open(s.stream.value)))
  {
    if NoRoom(size, nmemb) || file.None? then Read([], file)
    else match file.value
      case Closed => Read([], file)
      case Open(unread) =>
        var n := NextChunk(unread);
        Read(n.chunk, Some(Open(n.stream)))
  }

  /** Every '\n' of `s` replaced by CRLF; other characters kept. */
  function CrlfOf(s: string): string
  {
    if s == [] then []
    else (if s[0] == '\n' then "\r\n" else [s[0]]) + CrlfOf(s[1..])
  }

  /** Reference framing of a text as SMTP/IMAP upload lines (section 2.3.8 of
      RFC 5321): every line ends in CRLF, including a final line that had no
      terminator. */
  function Framed(s: string): string
  {
    CrlfOf(s) + (if s != [] && s[|s| - 1] != '\n' then "\r\n" else [])
  }

  lemma {:induction false} CrlfOfAppend(a: string, b: string)
    ensures CrlfOf(a + b) == CrlfOf(a) + CrlfOf(b)
  {
    if a == [] {
      assert a + b == b;
    } else {
      assert (a + b)[1..] == a[1..] + b;
      CrlfOfAppend(a[1..], b);
    }
  }

  lemma {:induction false} CrlfOfWithoutLf(a: string)
    requires '\n' !in a
    ensures CrlfOf(a) == a
  {
    if a != [] {
      assert a[0] in a;
      assert forall c :: c in a[1..] ==> c in a;
      CrlfOfWithoutLf(a[1..]);
    }
  }

  /** Framing a '\n'-terminated line followed by more text. */
  lemma FramedLine(line: string, rest: string)
    requires '\n' !in line
    ensures Framed(line + "\n" + rest) == line + "\r\n" + Framed(rest)
  {
    var s := line + "\n" + rest;
    CrlfOfWithoutLf(line);
    CrlfOfAppend(line + "\n", rest);
    CrlfOfAppend(line, "\n");
    assert CrlfOf("\n") == "\r\n";
    assert CrlfOf(s) == line + "\r\n" + CrlfOf(rest);
    FramedTail(line + "\n", rest);
    var tail := if rest != [] && rest[|rest| - 1] != '\n' then "\r\n" else [];
    assert Framed(s) == CrlfOf(s) + tail;
    Regroup(line + "\r\n", CrlfOf(rest), tail);
  }

  /** The terminator `Framed` adds depends only on the last text, when there
      is any, and is absent after a '\n'. */
  lemma FramedTail(head: string, rest: string)
    requires head != [] && head[|head| - 1] == '\n'
    ensures var s := head + rest;
            (s != [] && s[|s| - 1] != '\n') == (rest != [] && rest[|rest| - 1] != '\n')
  {
    var s := head + rest;
    if rest != [] {
      assert s[|s| - 1] == rest[|rest| - 1];
    } else {
      assert s == head;
    }
  }

  /** Framing an unterminated last line. */
  lemma FramedLast(line: string)
    requires '\n' !in line && line != []
    ensures Framed(line) == line + "\r\n"
  {
    CrlfOfWithoutLf(line);
    assert line[|line| - 1] in line;
  }

  /** One read call produces exactly the next piece of the reference framing. */
  lemma FramedStep(s: string)
    requires s != []
    ensures Framed(s) == NextChunk(s).chunk + Framed(NextChunk(s).stream)
    ensures |NextChunk(s).stream| < |s|
  {
    var e := GetLine(s).value;
    if s == e.line + "\n" + e.rest {
      FramedLine(e.line, e.rest);
    } else {
      FramedLast(e.line);
    }
  }

  /** The number of lines `std::getline` extracts from `s` before it fails. */
  function LineCount(s: string): nat
    decreases |s|
  {
    if s == [] then 0 else 1 + LineCount(GetLine(s).value.rest)
  }

  /** The number of '\n' characters in `s`. */
  function Newlines(s: string): nat
  {
    if s == [] then 0 else (if s[0] == '\n' then 1 else 0) + Newlines(s[1..])
  }

  lemma {:induction false} NewlinesAppend(a: string, b: string)
    ensures Newlines(a + b) == Newlines(a) + Newlines(b)
  {
    if a == [] {
      assert a + b == b;
    } else {
      assert (a + b)[1..] == a[1..] + b;
      NewlinesAppend(a[1..], b);
    }
  }

  lemma {:induction false} NoNewlines(a: string)
    requires '\n' !in a
    ensures Newlines(a) == 0
  {
    if a != [] {
      assert a[0] in a;
      assert forall c :: c in a[1..] ==> c in a;
      NoNewlines(a[1..]);
    }
  }

  /** A '\n'-terminated line counts once, holds one '\n', and leaves the
      question of an unterminated last line to the rest. */
  lemma LineCountLine(line: string, rest: string)
    requires '\n' !in line
    ensures var s := line + "\n" + rest;
            && LineCount(s) == 1 + LineCount(rest)
            && Newlines(s) == 1 + Newlines(rest)
            && (s[|s| - 1] != '\n') == (rest != [] && rest[|rest| - 1] != '\n')
  {
    GetLineSplit(line, rest);
    NoNewlines(line);
    NewlinesAppend(line + "\n", rest);
    NewlinesAppend(line, "\n");
    assert Newlines("\n") == 1;
    FramedTail(line + "\n", rest);
  }

  /** An unterminated last line counts once and holds no '\n'. */
  lemma LineCountLast(line: string)
    requires '\n' !in line && line != []
    ensures LineCount(line) == 1 && Newlines(line) == 0 && line[|line| - 1] != '\n'
  {
    GetLineLast(line);
    NoNewlines(line);
    assert line[|line| - 1] in line;
  }

  /** Counted by characters: one line per '\n', plus an unterminated last line. */
  lemma {:induction false} LineCountByNewlines(s: string)
    ensures LineCount(s) == Newlines(s) + (if s != [] && s[|s| - 1] != '\n' then 1 else 0)
    decreases |s|
  {
    if s != [] {
      var e := GetLine(s).value;
      if s == e.line + "\n" + e.rest {
        LineCountByNewlines(e.rest);
        LineCountLine(e.line, e.rest);
      } else {
        LineCountLast(s);
      }
    }
  }

  /** One read of a non-exhausted stream hands over the next line and
      consumes exactly that line. */
  lemma ReadStep(s: string, size: nat, nmemb: nat)
    requires !NoRoom(size, nmemb) && s != []
    ensures ReadLineFromString(Some(s), size, nmemb) == Read(NextChunk(s).chunk, Some(NextChunk(s).stream))
    ensures NextChunk(s).chunk != []
  {
  }

  /** That line is one of those `LineCount` counts. */
  lemma LineCountStep(s: string)
    requires s != []
    ensures LineCount(s) == 1 + LineCount(NextChunk(s).stream)
  {
  }

  /** One call of the loop in `Upload`: an exhausted stream answers 0 bytes;
      any other hands over the next piece of the framing, one line, and
      shrinks. */
  lemma UploadStep(s: string, size: nat, nmemb: nat)
    requires !NoRoom(size, nmemb)
    ensures var r := ReadLineFromString(Some(s), size, nmemb);
            && (r.chunk == [] <==> s == [])
            && (s == [] ==> Framed(s) == [] && LineCount(s) == 0)
            && (s != [] ==> && r.stream.Some? && |r.stream.value| < |s|
                            && r.chunk + Framed(r.stream.value) == Framed(s)
                            && LineCount(s) == 1 + LineCount(r.stream.value))
  {
    if s != [] {
      ReadStep(s, size, nmemb);
      LineCountStep(s);
      FramedStep(s);
    }
  }

  /** Uploads a whole text through the string line source, as libcurl does by
      calling the read callback until it answers 0 bytes. The concatenated
      chunks are the reference framing of the text, and the callback runs once
      per line plus the final call that answers 0 bytes. */
  method Upload(text: string, size: nat, nmemb: nat) returns (payload: string, calls: nat)
    requires !NoRoom(size, nmemb)
    ensures payload == Framed(text)
    ensures calls == LineCount(text) + 1
  {
    var unread := text;
    payload := [];
    calls := 0;
    while true
      invariant payload + Framed(unread) == Framed(text)
      invariant calls + LineCount(unread) == LineCount(text)
      decreases |unread|
    {
      var r := ReadLineFromString(Some(unread), size, nmemb);
      calls := calls + 1;
      UploadStep(unread, size, nmemb);
      if r.chunk == [] {
        Regroup(payload, [], []);
        return;
      }
      Regroup(payload, r.chunk, Framed(r.stream.value));
      payload := payload + r.chunk;
      unread := r.stream.value;
    }
  }

  /** Regrouping a concatenation; an empty tail adds nothing. */
  lemma Regroup(a: string, b: string, c: string)
    ensures a + b + c == a + (b + c)
    ensures a + [] == a
  {
  }

  /** The first '\n' after a line without one is the one that ends it. */
  lemma {:induction false} LineEndSplit(line: string, rest: string)
    requires '\n' !in line
    ensures LineEnd(line + "\n" + rest) == |line|
    decreases |line|
  {
    var s := line + "\n" + rest;
    if line != [] {
      assert line[0] in line;
      assert s[1..] == line[1..] + "\n" + rest;
      assert forall c :: c in line[1..] ==> c in line;
      LineEndSplit(line[1..], rest);
    }
  }

  /** A text without '\n' has its delimiter search run to the end. */
  lemma {:induction false} LineEndNone(line: string)
    requires '\n' !in line
    ensures LineEnd(line) == |line|
    decreases |line|
  {
    if line != [] {
      assert line[0] in line;
      assert forall c :: c in line[1..] ==> c in line;
      LineEndNone(line[1..]);
    }
  }

  /** `getline` on a line followed by '\n' extracts exactly that line. */
  lemma GetLineSplit(line: string, rest: string)
    requires '\n' !in line
    ensures GetLine(line + "\n" + rest) == Some(Extracted(line, rest))
  {
    var s := line + "\n" + rest;
    LineEndSplit(line, rest);
    assert s[..|line|] == line && s[|line| + 1..] == rest;
  }

  /** `getline` on an unterminated last line extracts all of it. */
  lemma GetLineLast(line: string)
    requires '\n' !in line && line != []
    ensures GetLine(line) == Some(Extracted(line, []))
  {
    LineEndNone(line);
  }

  /** A read of a stream holding a '\n'-terminated line hands over that line
      with CRLF and leaves the rest. */
  lemma ReadsLine(line: string, rest: string, size: nat, nmemb: nat)
    requires !NoRoom(size, nmemb) && '\n' !in line
    ensures ReadLineFromString(Some(line + "\n" + rest), size, nmemb) == Read(line + "\r\n", Some(rest))
  {
    GetLineSplit(line, rest);
  }

  /** A read of a stream holding only an unterminated line hands over that
      line with CRLF and leaves the stream exhausted. */
  lemma ReadsLast(line: string, size: nat, nmemb: nat)
    requires !NoRoom(size, nmemb) && '\n' !in line && line != []
    ensures ReadLineFromString(Some(line), size, nmemb) == Read(line + "\r\n", Some([]))
  {
    GetLineLast(line);
  }

  /** The worked example's first read: "a\nb\nc" hands over "a\r\n". */
  lemma ExampleFirstRead()
    ensures ReadLineFromString(Some("a\nb\nc"), 1, 64) == Read("a\r\n", Some("b\nc"))
  {
    assert "a\nb\nc" == "a" + "\n" + "b\nc";
    ReadsLine("a", "b\nc", 1, 64);
    assert "a" + "\r\n" == "a\r\n";
  }

  /** The worked example's second read: "b\nc" hands over "b\r\n". */
  lemma ExampleSecondRead()
    ensures ReadLineFromString(Some("b\nc"), 1, 64) == Read("b\r\n", Some("c"))
  {
    assert "b\nc" == "b" + "\n" + "c";
    ReadsLine("b", "c", 1, 64);
    assert "b" + "\r\n" == "b\r\n";
  }

  /** The worked example's third read: "c" hands over "c\r\n". */
  lemma ExampleThirdRead()
    ensures ReadLineFromString(Some("c"), 1, 64) == Read("c\r\n", Some([]))
  {
    ReadsLast("c", 1, 64);
    assert "c" + "\r\n" == "c\r\n";
  }

  /** The worked example of the upload framing: "a\nb\nc" is sent as three
      CRLF-terminated lines, then end of data. */
  lemma ThreeLineExample()
    ensures var r1 := ReadLineFromString(Some("a\nb\nc"), 1, 64);
            var r2 := ReadLineFromString(r1.stream, 1, 64);
            var r3 := ReadLineFromString(r2.stream, 1, 64);
            var r4 := ReadLineFromString(r3.stream, 1, 64);
            r1.chunk == "a\r\n" && r2.chunk == "b\r\n" && r3.chunk == "c\r\n" && r4.chunk == []
  {
    ExampleFirstRead();
    ExampleSecondRead();
    ExampleThirdRead();
  }

  /** What a write callback returns, and its target afterwards. */
  datatype Written<T> = Written(count: nat, target: T)

  /** `WriteInStringCallback`: appends the `size * nmemb` offered bytes to the
      target string and reports them all taken; a null target takes nothing. */
  function WriteInString(target: Option<string>, data: string, size: nat, nmemb: nat): (r: Written<Option<string>>)
    requires |data| == Capacity(size, nmemb)
    ensures target.None? ==> r == Written(0, None)
    ensures target.Some? ==> r.count == |data| && r.target.Some?
                             && |r.target.value| == |target.value| + |data|
                             && r.target.value[..|target.value|] == target.value
                             && r.target.value[|target.value|..] == data
  {
    match target
    case None => Written(0, None)
    case Some(t) => Written(size * nmemb % SizeModulus, Some(t + data))
  }

  function Concat(chunks: seq<string>): string
  {
    if chunks == [] then [] else Concat(chunks[..|chunks| - 1]) + chunks[|chunks| - 1]
  }

  /** Feeds a download, chunk by chunk, to the string sink: the target ends up
      holding its old text followed by every chunk in order. */
  method Collect(target: string, chunks: seq<string>) returns (result: string, total: nat)
    requires forall i :: 0 <= i < |chunks| ==> |chunks[i]| < SizeModulus
    ensures result == target + Concat(chunks)
    ensures total == |Concat(chunks)|
  {
    var sink := Some(target);
    total := 0;
    var k := 0;
    assert chunks[..0] == [] && target + Concat([]) == target;
    while k < |chunks|
      invariant 0 <= k <= |chunks|
      invariant sink == Some(target + Concat(chunks[..k]))
      invariant total == |Concat(chunks[..k])|
    {
      var w := WriteInString(sink, chunks[k], 1, |chunks[k]|);
      assert chunks[..k + 1][..k] == chunks[..k];
      assert Concat(chunks[..k + 1]) == Concat(chunks[..k]) + chunks[k];
      var before := sink.value;
      assert w.target.value == before + chunks[k] by {
        assert w.target.value[..|before|] == before;
        assert w.target.value[|before|..] == chunks[k];
        assert w.target.value == w.target.value[..|before|] + w.target.value[|before|..];
      }
      assert before + chunks[k] == target + Concat(chunks[..k + 1]);
      sink := w.target;
      total := total + w.count;
      k := k + 1;
    }
    assert chunks[..k] == chunks;
    result := sink.value;
  }

  /** A local file sink: closed, or open with the bytes written so far. */
  datatype FileSink = ClosedFile | OpenFile(content: string)

  /** What `WriteToFileCallback` does with the offered bytes: the count it
      reports, the file afterwards, and what it echoed to standard output. */
  datatype FileWrite = FileWrite(count: nat, file: Option<FileSink>, echoed: string)

  /** `WriteToFileCallback`: a zero-sized buffer or a null file takes nothing;
      an open file appends the bytes; a closed one sends them to standard output
      instead. Either way all bytes are reported taken. */
  function WriteToFile(file: Option<FileSink>, data: string, size: nat, nmemb: nat): (r: FileWrite)
    requires |data| == Capacity(size, nmemb)
    ensures NoRoom(size, nmemb) || file.None? ==> r == FileWrite(0, file, [])
    ensures !NoRoom(size, nmemb) && file.Some? ==> r.count == |data| > 0
    ensures !NoRoom(size, nmemb) && file == Some(ClosedFile) ==> r.file == file && r.echoed == data
    ensures !NoRoom(size, nmemb) && file.Some? && file.value.OpenFile? ==>
      r.echoed == [] && r.file == Some(OpenFile(file.value.content + data))
  {
    if NoRoom(size, nmemb) || file.None? then FileWrite(0, file, [])
    else match file.value
      case OpenFile(content) => FileWrite(Capacity(size, nmemb), Some(OpenFile(content + data)), [])
      case ClosedFile => FileWrite(Capacity(size, nmemb), file, data)
  }

  /** Feeds a download, chunk by chunk, to the file sink: an open file ends up
      holding its old content followed by every chunk in order; a closed one
      stays closed and every chunk is echoed instead. An empty chunk offers no
      room and changes nothing. */
  method CollectToFile(file: FileSink, chunks: seq<string>) returns (after: FileSink, echoed: string, total: nat)
    requires forall i :: 0 <= i < |chunks| ==> |chunks[i]| < SizeModulus
    ensures file.OpenFile? ==> after == OpenFile(file.content + Concat(chunks)) && echoed == []
    ensures file.ClosedFile? ==> after == ClosedFile && echoed == Concat(chunks)
    ensures total == |Concat(chunks)|
  {
    after, echoed, total := file, [], 0;
    var k := 0;
    assert chunks[..0] == [];
    while k < |chunks|
      invariant 0 <= k <= |chunks|
      invariant file.OpenFile? ==> after == OpenFile(file.content + Concat(chunks[..k])) && echoed == []
      invariant file.ClosedFile? ==> after == ClosedFile && echoed == Concat(chunks[..k])
      invariant total == |Concat(chunks[..k])|
    {
      var w := WriteToFile(Some(after), chunks[k], 1, |chunks[k]|);
      assert chunks[..k + 1][..k] == chunks[..k];
      assert Concat(chunks[..k + 1]) == Concat(chunks[..k]) + chunks[k];
      if chunks[k] == [] {
        assert Concat(chunks[..k]) + chunks[k] == Concat(chunks[..k]);
      }
      assert file.OpenFile? ==> w.file.value.content == file.content + Concat(chunks[..k + 1]);
      after := w.file.value;
      echoed := echoed + w.echoed;
      total := total + w.count;
      k := k + 1;
    }
    assert chunks[..k] == chunks;
  }
}

=== FILE: strings.dfy ===
/** Character-level helpers: the ASCII upper-casing that `::toupper` performs in the
    "C" locale, and the case-insensitive prefix test the clients build from it. */
module Strings {

  /** `::toupper` on one character: only 'a'..'z' change. */
  function UpperChar(c: char): char
  {
    if 'a' <= c <= 'z' then (c as int - 32) as char else c
  }

  /** `std::transform(s.begin(), s.end(), s.begin(), ::toupper)`. */
  function Upper(s: string): (u: string)
    ensures |u| == |s|
    ensures forall i :: 0 <= i < |s| ==> u[i] == UpperChar(s[i])
  {
    seq(|s|, i requires 0 <= i < |s| => UpperChar(s[i]))
  }

  /** `Upper(s).compare(0, |lit|, lit) == 0`: the first |lit| characters of `s`,
      upper-cased, spell `lit`. A string shorter than `lit` never matches. */
  predicate StartsWithIgnoringCase(s: string, lit: string)
  {
    |lit| <= |s| && Upper(s)[..|lit|] == lit
  }

  /** Upper-casing commutes with taking a prefix. */
  lemma UpperPrefix(s: string, t: string)
    ensures Upper(s + t)[..|s|] == Upper(s)
  {
  }

  /** A string whose prefix upper-cases to `lit` matches `lit` whatever follows it. */
  lemma StartsWithExtends(s: string, t: string, lit: string)
    requires |lit| <= |s| && Upper(s)[..|lit|] == lit
    ensures StartsWithIgnoringCase(s + t, lit)
  {
    assert Upper(s + t)[..|lit|] == Upper(s)[..|lit|];
  }
}

=== FILE: urls.dfy ===
/** The scheme normalisation shared by the `ParseURL` overrides of the POP3,
    IMAP and SMTP clients: a host without one of the protocol's schemes gets the
    plain or the SSL scheme prepended according to the TLS mode; a host that
    already has one (in any case) keeps its text and forces the SSL mode; POP3
    and IMAP also make sure the URL ends in '/'. */
module Urls {
  import opened Strings
  import opened Flags

  /** A protocol's two schemes as prepended (lower case) and as compared (upper case). */
  datatype Scheme = Scheme(plain: string, secure: string, plainUpper: string, secureUpper: string)

  /** The upper-case spellings match, and the plain scheme is not a prefix of
      the secure one: "pop3://" differs from "pop3s://" at its fifth character. */
  predicate WellFormed(sc: Scheme)
  {
    && Upper(sc.plain) == sc.plainUpper
    && Upper(sc.secure) == sc.secureUpper
    && |sc.plain| <= |sc.secure|
    && sc.secure[..|sc.plain|] != sc.plain
  }

  /** The URL and the TLS mode a session holds after `ParseURL`. */
  datatype Normalised = Normalised(url: string, tls: TlsMode)

  /** The URL already names the protocol (`HOST.compare(0, 8, "POP3S://") == 0 ||
      HOST.compare(0, 7, "POP3://") == 0` on the upper-cased text, for POP3). */
  predicate HasScheme(url: string, sc: Scheme)
  {
    StartsWithIgnoringCase(url, sc.secureUpper) || StartsWithIgnoringCase(url, sc.plainUpper)
  }

  predicate EndsWithSlash(s: string)
  {
    s != [] && s[|s| - 1] == '/'
  }

  /** The scheme prepended to a host that has none. */
  function SchemeFor(sc: Scheme, tls: TlsMode): string
  {
    if tls == EnableSsl then sc.secure else sc.plain
  }

  /** The shared body of the `ParseURL` overrides; `slash` is set for POP3 and IMAP. */
  function Normalise(url: string, tls: TlsMode, sc: Scheme, slash: bool): (r: Normalised)
    requires WellFormed(sc)
    ensures r.tls == (if HasScheme(url, sc) then EnableSsl else tls)
    ensures var given := if HasScheme(url, sc) then url else SchemeFor(sc, tls) + url;
            |r.url| == |given| + (if slash && !EndsWithSlash(given) then 1 else 0)
    ensures HasScheme(url, sc) ==> r.url[..|url|] == url
    ensures !HasScheme(url, sc) ==> r.url[..|SchemeFor(sc, tls)|] == SchemeFor(sc, tls)
                                    && r.url[|SchemeFor(sc, tls)|..|SchemeFor(sc, tls)| + |url|] == url
    ensures slash ==> EndsWithSlash(r.url)
  {
    var hasScheme := HasScheme(url, sc);
    var withScheme := if hasScheme then url else SchemeFor(sc, tls) + url;
    var withSlash := if slash && !EndsWithSlash(withScheme) then withScheme + "/" else withScheme;
    assert withSlash[..|withScheme|] == withScheme;
    assert !hasScheme ==> withScheme[..|SchemeFor(sc, tls)|] == SchemeFor(sc, tls)
                          && withScheme[|SchemeFor(sc, tls)|..] == url;
    Normalised(withSlash, if hasScheme then EnableSsl else tls)
  }

  /** A normalised URL always carries one of the protocol's schemes. */
  lemma NormalisedHasScheme(url: string, tls: TlsMode, sc: Scheme, slash: bool)
    requires WellFormed(sc)
    ensures HasScheme(Normalise(url, tls, sc, slash).url, sc)
  {
    var withScheme := if HasScheme(url, sc) then url else SchemeFor(sc, tls) + url;
    SchemeDetected(sc, tls, url);
    if slash && !EndsWithSlash(withScheme) {
      SlashKeepsScheme(withScheme, sc);
    }
  }

  /** Appending '/' does not disturb a recognised scheme. */
  lemma SlashKeepsScheme(s: string, sc: Scheme)
    requires HasScheme(s, sc)
    ensures HasScheme(s + "/", sc)
  {
    var n := if StartsWithIgnoringCase(s, sc.secureUpper) then |sc.secureUpper| else |sc.plainUpper|;
    assert s == s[..n] + s[n..];
    assert s + "/" == s[..n] + (s[n..] + "/");
    UpperPrefix(s[..n], s[n..] + "/");
    UpperPrefix(s[..n], s[n..]);
  }

  /** A prepended scheme is recognised by the case-insensitive test. */
  lemma SchemeDetected(sc: Scheme, tls: TlsMode, host: string)
    requires WellFormed(sc)
    ensures HasScheme(SchemeFor(sc, tls) + host, sc)
  {
    var s := SchemeFor(sc, tls);
    UpperPrefix(s, host);
    if tls == EnableSsl {
      StartsWithExtends(s, host, sc.secureUpper);
    } else {
      StartsWithExtends(s, host, sc.plainUpper);
    }
  }

  /** Normalising an already normalised URL leaves it unchanged, and (because
      the URL now carries a scheme) sets the SSL mode whatever mode is given. */
  lemma NormaliseFixedPoint(url: string, tls: TlsMode, again: TlsMode, sc: Scheme, slash: bool)
    requires WellFormed(sc)
    ensures var r := Normalise(url, tls, sc, slash);
            Normalise(r.url, again, sc, slash) == Normalised(r.url, EnableSsl)
  {
    NormalisedHasScheme(url, tls, sc, slash);
  }

  /** For a host without a scheme, the SSL scheme is chosen exactly when the
      mode is the implicit-SSL one. */
  lemma SecureSchemeIffSsl(url: string, tls: TlsMode, sc: Scheme, slash: bool)
    requires WellFormed(sc)
    requires !HasScheme(url, sc)
    ensures var r := Normalise(url, tls, sc, slash);
            (|sc.secure| <= |r.url| && r.url[..|sc.secure|] == sc.secure) <==> tls == EnableSsl
  {

  }
}

=== FILE: wrappers.dfy ===
/** Option type used wherever the source has a nullable pointer or an optional setting. */
module Wrappers {
  datatype Option<+T> = None | Some(value: T)
}
